=== FILE: README.md ===
# Receipt parsing, budget status and spending insights — a Dafny model

This project models the computational core of an expense-tracking web
application:

- **Receipt parsing** (`parse_ocr_text`). An OCR transcript is normalised:
  it is upper-cased, its newlines become spaces and its dollar signs are
  dropped. Fixed rules then read the following from it:
  - a merchant, from the leading run of letters, whitespace and `&`;
  - an amount, from the first `TOTAL`/`BALANCE`/`AMOUNT` followed by a token
    ending in `.dd`;
  - a date, from the first `DATE` followed by a numeric day/month/year
    group. Four `strptime` formats are tried in order, and today is used
    when none applies;
  - a category and a payment method, from keyword rules;
  - a description that embeds the first 150 characters of the normalised
    text.
- **Dashboard budget status** (`dashboard`):
  - the month-to-date total and expense count;
  - for every budget active today, what it has consumed, what remains, the
    percentage used, its rounding to one decimal, and a
    danger/warning/success status;
  - a fixed fallback context when a query fails.
- **Insights** (`check_budget_alerts`, `generate_weekly_summary`):
  - an alert message for every active budget whose percentage reaches its
    threshold;
  - the weekly summary: the total and per-category totals from seven days
    ago onward, the fixed comparison, and the message.

## Modelling choices

- **Money** is integer cents. Receipt amounts are natural numbers. Stored
  amounts and limits are integers and may be negative, since the model
  fields carry no validator.
- **Strings** are `seq<char>` restricted to ASCII semantics.
  - Python's `\s` and `str.isspace` become tab through carriage return,
    0x1C-0x1F and space.
  - `str.upper` changes only `a`-`z`.
- **Regex searches** are leftmost scans. Each scan's result is
  characterised by a declarative "the pattern matches here" predicate,
  proved leftmost and greedy against it.
- **Dates** follow Python's `date`:
  - years run from 1 to 9999, and ordinals are `toordinal`;
  - `today - timedelta(days=7)` is `None` where Python raises
    `OverflowError`.
- **The clock is a parameter.** `today` replaces `datetime.now()` and
  `timezone.now()`. The dashboard compares dates only, as the date-field
  lookups do.
- **Queries are functions on sequences.**
  - The ORM filters are `Select` over an in-memory expense sequence in
    query order.
  - `aggregate(Sum(...)) or 0` is `Total`, 0 for no rows.
  - Grouping by category name is a map built from the names present.
- **Failures.** A failing dashboard query is an absent store. A zero budget
  limit in the alert check is `Failure(ZeroLimit)` for the whole call: the
  `Decimal` division raises (`DivisionByZero`, or `InvalidOperation` when
  nothing was spent), which aborts it.
- **Percentages** are exact rationals (`real`). Every comparison on them is
  also stated, and proved, as integer cross-multiplication.
- **Messages.** `int(percentage)` is truncation toward zero. `round(x, 1)`
  is round-half-even in tenths.

The receipt parser is a fixed set of regular expressions, each searched
once, leftmost first:

- Keywords carry no priority, so `TOTAL` inside `SUBTOTAL` matches and
  wins when it comes first (`OcrExamples.SubtotalIsReported`).
- A receipt without a keyword-led amount gets 0; no other number in the
  text is considered.
- The first keyword-led amount decides, even when its token does not read
  as a decimal: the result is then 0, not a later amount
  (`OcrExamples.UnparsableLeftmostGivesZero`). The date step behaves the
  same way (`OcrExamples.UnreadableFirstDateGivesToday`).
- The merchant is only the leading run of capitals, whitespace and `&`.

## Model

| member | source | states |
|---|---|---|
| Text.Upper | apps/expenses/ocr_service.py:22 | `upper()` keeps the length and maps each character, turning exactly the lower-case ASCII letters into upper case |
| Text.ReplaceChar | apps/expenses/ocr_service.py:22 | `replace('\n', ' ')` keeps the length and swaps exactly the matching characters |
| Text.RemoveChar | apps/expenses/ocr_service.py:22 | `replace('$', '')` shortens the text by the number of occurrences, leaves none, and keeps only characters of the input |
| Text.RemoveCharAppend | apps/expenses/ocr_service.py:22 | deleting a character distributes over concatenation |
| Text.Strip | apps/expenses/ocr_service.py:26 | `strip()` is a contiguous piece of the input, with only whitespace cut on either side and no whitespace at its ends; it is empty exactly when the input is all whitespace |
| Text.ContainsTransitive | apps/expenses/ocr_service.py:51-53 | a substring of a substring is a substring |
| Text.NatToStringRoundTrip | apps/ai_services/utils.py:62 | reading back the decimal rendering of a natural number gives the number |
| Text.IntToString | apps/ai_services/utils.py:62 | `str()` of an integer is non-empty and starts with `-` exactly for negatives |
| OcrService.Normalize | apps/expenses/ocr_service.py:22 | the normalised text is one character shorter per `$`, and holds no newline, no `$` and no lower-case letter |
| OcrService.NormalizeIdempotent | apps/expenses/ocr_service.py:22 | normalising twice is normalising once |
| OcrService.MerchantPrefix | apps/expenses/ocr_service.py:25 | `^([A-Z\s&]+)` matches with group `text[..k]` exactly when `k` is the end of a non-empty leading run of capitals, whitespace and `&` |
| OcrService.ExtractMerchant | apps/expenses/ocr_service.py:25-26 | the placeholder merchant is returned exactly when the text is empty or does not start with `[A-Z\s&]`; otherwise the merchant is the stripped longest class prefix |
| OcrService.ClassIsNotPlaceholder | apps/expenses/ocr_service.py:25-26 | no run of capitals, whitespace and `&` spells the placeholder, so the placeholder always means no match |
| OcrService.MerchantIsStrippedPrefix | apps/expenses/ocr_service.py:25-26 | a found merchant is the stripped longest non-empty prefix of class characters |
| OcrService.StrippedPrefixShape | apps/expenses/ocr_service.py:26 | stripping a class prefix leaves a stretch of the text made of class characters with no whitespace at either end |
| OcrService.MerchantShape | apps/expenses/ocr_service.py:25-26 | a found merchant occurs in the text, uses only class characters and has no surrounding whitespace |
| OcrService.BlankMerchant | apps/expenses/ocr_service.py:25-26 | a class prefix of only whitespace yields the empty merchant, not the placeholder |
| OcrService.PlaceholderHasNoKeyword | apps/expenses/ocr_service.py:26-53 | the placeholder merchant contains none of `BURGER`, `CAFE`, `SUPERMART` |
| OcrService.MerchantKeywordInText | apps/expenses/ocr_service.py:51-53 | a keyword found in the merchant is also found in the text |
| OcrService.CategoryFollowsKeywords | apps/expenses/ocr_service.py:50-54 | on one normalised text, each category needs one of its keywords in the text; `FOOD` always gives dining; no keyword at all gives `Uncategorized` |
| OcrService.CategoryFollowsText | apps/expenses/ocr_service.py:50-54 | each category needs one of its keywords in the text; `FOOD` always gives dining; no keyword at all gives `Uncategorized` |
| OcrService.CategoryIsKnown | apps/expenses/ocr_service.py:50-54 | the category is one of the three names |
| OcrService.PaymentFollowsText | apps/expenses/ocr_service.py:56-58 | the payment method is `Credit Card` exactly when `VISA`, `MASTERCARD` or `CREDIT` occurs in the normalised text |
| OcrService.Categorize | apps/expenses/ocr_service.py:50-54 | dining exactly when the merchant holds `BURGER` or `CAFE` or the text `FOOD`; groceries exactly when none of those holds and the merchant holds `SUPERMART` or the text `GROCERY`; uncategorised exactly when no trigger holds |
| OcrService.DetectPayment | apps/expenses/ocr_service.py:56-58 | a credit card exactly when `VISA`, `MASTERCARD` or `CREDIT` occurs in the text |
| OcrService.CategoryRule | apps/expenses/ocr_service.py:22-54 | on the parsed record, with the merchant extracted from the normalised text: the record names that merchant, and its category is dining, groceries or uncategorised under the three exclusive conditions of the rules |
| OcrService.Preview | apps/expenses/ocr_service.py:66 | `text[:150]` is the prefix of exactly 150 characters, or the whole text when it is that short |
| OcrService.ParseOcrText | apps/expenses/ocr_service.py:16-69 | currency `USD`; payment method one of its two names; category one of its three names; the merchant, amount and date are those extracted from the normalised text, and the date is valid whenever today is; the description frames the category and the preview |
| OcrService.RecordAmountOfMatch | apps/expenses/ocr_service.py:22-35 | the record's amount, at the leftmost-longest amount match of the normalised text, is the token's value when `Decimal` accepts it and 0 when it does not, whatever later matches exist |
| OcrService.RecordAmountWithoutMatch | apps/expenses/ocr_service.py:28-31 | a transcript with no amount match records 0 |
| OcrService.RecordDateOfMatch | apps/expenses/ocr_service.py:22-47 | the record's date, at the leftmost-longest date match of the normalised text, is the first accepting format's reading, or today when no format accepts the token, whatever later matches exist |
| OcrService.RecordDateWithoutMatch | apps/expenses/ocr_service.py:38-40 | a transcript with no date match records today |
| OcrService.ParseDependsOnNormalizedText | apps/expenses/ocr_service.py:22-69 | transcripts with the same normalised text give the same record, so letter case, newlines and `$` never matter |
| OcrAmount.MatchAt | apps/expenses/ocr_service.py:29 | the reading of `(TOTAL\|BALANCE\|AMOUNT)\s*([\d,\.]+\.\d{2})` at a position: a keyword, whitespace, then a group of at least four amount characters ending in `.dd` that lies inside the text |
| OcrAmount.KeywordLength | apps/expenses/ocr_service.py:29 | the alternative found at a position fits in the text |
| OcrAmount.LastCentsEnd | apps/expenses/ocr_service.py:29 | the greedy token end is the last position in the amount-character run where `\.\d{2}` ends, and no later end works |
| OcrAmount.MatchAtIsForced | apps/expenses/ocr_service.py:29 | any match has its token right after the maximal whitespace run and inside the maximal `[\d,\.]` run |
| OcrAmount.NoMatchWithoutKeyword | apps/expenses/ocr_service.py:29 | no match starts where no keyword does |
| OcrAmount.NoMatchWithoutCents | apps/expenses/ocr_service.py:29 | no match starts at a keyword whose run has no `.dd` end |
| OcrAmount.Greedy | apps/expenses/ocr_service.py:29 | the chosen token end cannot be extended |
| OcrAmount.KeywordFound | apps/expenses/ocr_service.py:29 | the token the scan picks is a match of the pattern |
| OcrAmount.SearchAmount | apps/expenses/ocr_service.py:29 | the result is a match, starts at the leftmost matching position, has the longest token there, and None means no match anywhere |
| OcrAmount.FindAmount | apps/expenses/ocr_service.py:29 | a found match is a match, the longest at its start, with no match at any earlier position; nothing found means no match anywhere |
| OcrAmount.LongestMatchUnique | apps/expenses/ocr_service.py:29 | two longest matches at the same start have the same token |
| OcrAmount.FindAmountIsLeftmostLongest | apps/expenses/ocr_service.py:29 | any match that is leftmost and longest is exactly what the search returns |
| OcrAmount.DecimalCents | apps/expenses/ocr_service.py:33-35 | `Decimal()` of a comma-free token succeeds exactly when its final dot is its only dot |
| OcrAmount.FormatCents | apps/expenses/ocr_service.py:33 | an amount renders as digits, a dot and two digits |
| OcrAmount.FormatCentsRoundTrip | apps/expenses/ocr_service.py:33 | parsing the rendering of an amount gives the amount back |
| OcrAmount.RemoveCharAbsent | apps/expenses/ocr_service.py:33 | removing a character that does not occur changes nothing |
| OcrAmount.RemoveCommasKeepsCents | apps/expenses/ocr_service.py:33 | deleting commas from a token ending in `.dd` keeps that ending |
| OcrAmount.RemoveCommasLeavesDigitsAndDots | apps/expenses/ocr_service.py:33 | deleting commas from a string of digits, commas and dots leaves only digits and dots |
| OcrAmount.StripCommasShape | apps/expenses/ocr_service.py:33 | a matched token without its commas still ends in `.dd` and holds only digits and dots |
| OcrAmount.FoundTokenShape | apps/expenses/ocr_service.py:29 | a captured token has at least four characters, holds only digits, commas and dots, and ends in `.dd` |
| OcrAmount.TokenCents | apps/expenses/ocr_service.py:33-35 | `Decimal` of the token without commas succeeds exactly when no dot comes before its final `.dd` |
| OcrAmount.ExtractAmount | apps/expenses/ocr_service.py:29-35 | no match gives 0, and a non-zero amount always comes from a match |
| OcrAmount.ExtractAmountOfMatch | apps/expenses/ocr_service.py:29-35 | at the leftmost-longest match the amount is the token's value when it reads as a decimal, and 0 when it does not, whatever later matches exist |
| OcrDate.MatchAt | apps/expenses/ocr_service.py:38 | the reading of `DATE[:\s]*(\d{1,2}[\/-]\d{1,2}[\/-]\d{2,4})` at a position: `DATE`, colons or whitespace, then a group of six to ten characters inside the text |
| OcrDate.MatchAtIsForced | apps/expenses/ocr_service.py:38 | the separators of any date match sit where the digit runs end, and the year lies inside the run after the second separator |
| OcrDate.DateAt | apps/expenses/ocr_service.py:38 | the match at a position is the one with the longest year, and None means no match there |
| OcrDate.LongestYear | apps/expenses/ocr_service.py:38 | `\d{2,4}` takes up to four digits of the run |
| OcrDate.NoMatchBadFirst | apps/expenses/ocr_service.py:38 | no match starts at a position whose first field is not one or two digits followed by `/` or `-` |
| OcrDate.NoMatchBadSecond | apps/expenses/ocr_service.py:38 | no match starts at a position whose second field is not one or two digits followed by `/` or `-` |
| OcrDate.NoMatchShortYear | apps/expenses/ocr_service.py:38 | no match starts at a position where fewer than two year digits follow the second separator |
| OcrDate.SearchDate | apps/expenses/ocr_service.py:38 | the result is the leftmost match, longest there, and None means no match anywhere |
| OcrDate.FindDate | apps/expenses/ocr_service.py:38 | a found match is a match, the longest at its start, with no match at any earlier position; nothing found means no match anywhere |
| OcrDate.LongestMatchUnique | apps/expenses/ocr_service.py:38 | two longest matches at the same start capture the same token |
| OcrDate.FindDateIsLeftmostLongest | apps/expenses/ocr_service.py:38 | any match that is leftmost and longest is exactly what the search returns |
| OcrDate.TokenOf | apps/expenses/ocr_service.py:41 | the captured group splits into 1-2 digits, a separator, 1-2 digits, a separator and 2-4 digits |
| OcrDate.MonthField | apps/expenses/ocr_service.py:44 | `%m` yields only months 1 to 12 |
| OcrDate.DayField | apps/expenses/ocr_service.py:44 | `%d` yields only days 1 to 31 |
| OcrDate.YearField | apps/expenses/ocr_service.py:44 | `%Y` accepts only four digits |
| OcrDate.Strptime | apps/expenses/ocr_service.py:44 | whatever `strptime` returns is a real calendar date |
| OcrDate.FirstParse | apps/expenses/ocr_service.py:42-47 | the loop yields a valid date exactly when some format in the list reads the token |
| OcrDate.ExtractDate | apps/expenses/ocr_service.py:38-47 | no match means today, and a valid today gives a valid date |
| OcrDate.ExtractDateOfMatch | apps/expenses/ocr_service.py:38-47 | at the leftmost-longest match the date is the token as the formats read it when one does, and today when none does, whatever later matches exist |
| OcrDate.YearFirstNeverApplies | apps/expenses/ocr_service.py:42 | `%Y/%m/%d` never reads a captured group |
| OcrDate.ShortYearFallsBack | apps/expenses/ocr_service.py:38-47 | a two- or three-digit year never parses |
| OcrDate.ParseDateTokenCases | apps/expenses/ocr_service.py:42-47 | with `/` the month-first reading wins when valid and day-first is used otherwise; with `-` only month-first exists; mixed separators never parse |
| OcrDate.ParseDateToken | apps/expenses/ocr_service.py:42-47 | no date exactly when every format rejects the token; otherwise a valid date, the one read by the first format that accepts it |
| OcrDate.Pad2 | apps/expenses/ocr_service.py:44 | a zero-padded two-digit field reads back as its number |
| OcrDate.FourDigitYear | apps/expenses/ocr_service.py:44 | years 1000-9999 render in four digits |
| OcrDate.MonthFirstRoundTrip | apps/expenses/ocr_service.py:42-47 | `MM/DD/YYYY` and `MM-DD-YYYY` read back as the printed date |
| OcrDate.DayFirstRoundTrip | apps/expenses/ocr_service.py:42-47 | `DD/MM/YYYY` with a day above 12 reads back as the printed date |
| OcrDate.DayFirstDashFails | apps/expenses/ocr_service.py:42-47 | `DD-MM-YYYY` with a day above 12 never parses |
| OcrExamples.SubtotalMatch | apps/expenses/ocr_service.py:29 | `TOTAL` inside `SUBTOTAL 10.00 TOTAL 12.45` matches with token `10.00` |
| OcrExamples.SubtotalNothingEarlier | apps/expenses/ocr_service.py:29 | nothing matches before that `TOTAL` |
| OcrExamples.SubtotalLongest | apps/expenses/ocr_service.py:29 | the token `10.00` cannot be extended |
| OcrExamples.SubtotalToken | apps/expenses/ocr_service.py:33 | the captured token is `10.00` |
| OcrExamples.SubtotalFound | apps/expenses/ocr_service.py:29 | the search returns the `SUBTOTAL` match |
| OcrExamples.TenDollars | apps/expenses/ocr_service.py:33 | `Decimal('10.00')` is 1000 cents |
| OcrExamples.SubtotalIsReported | apps/expenses/ocr_service.py:29-35 | `SUBTOTAL 10.00 TOTAL 12.45` reports 10.00, not the grand total |
| OcrExamples.ColonBlocksAmount | apps/expenses/ocr_service.py:29-35 | `TOTAL: 5.00` has no match and reports 0 |
| OcrExamples.TwoDotMatch | apps/expenses/ocr_service.py:29 | in `TOTAL 1.2.34 AMOUNT 5.00` the match at the start captures `1.2.34` and no longer token |
| OcrExamples.LaterAmountMatch | apps/expenses/ocr_service.py:29 | `AMOUNT 5.00` matches later in the same text |
| OcrExamples.TwoDotTokenFails | apps/expenses/ocr_service.py:33-35 | `1.2.34` has the captured shape but `Decimal` rejects it |
| OcrExamples.UnparsableLeftmostGivesZero | apps/expenses/ocr_service.py:29-35 | `TOTAL 1.2.34 AMOUNT 5.00` reports 0 although `AMOUNT 5.00` matches |
| OcrExamples.DateLineFound | apps/expenses/ocr_service.py:38-41 | `DATE: ` and a two-field, four-digit-year token match at the start and capture the whole token |
| OcrExamples.DigitsValueTwo | apps/expenses/ocr_service.py:44 | a two-digit field's value is ten times its first digit plus its second |
| OcrExamples.Year2024 | apps/expenses/ocr_service.py:44 | the field `2024` is the year 2024 |
| OcrExamples.DayFirstSlashToken | apps/expenses/ocr_service.py:42-47 | `25/11/2024` reads as 25 November 2024 |
| OcrExamples.DayFirstSlashDate | apps/expenses/ocr_service.py:38-47 | `DATE: 25/11/2024` gives 25 November 2024 whatever today is |
| OcrExamples.MonthFirstSlashToken | apps/expenses/ocr_service.py:42-47 | `03/04/2024` reads as 4 March 2024 |
| OcrExamples.MonthFirstSlashDate | apps/expenses/ocr_service.py:38-47 | `DATE: 03/04/2024` gives 4 March 2024 whatever today is |
| OcrExamples.DayFirstDashDate | apps/expenses/ocr_service.py:38-47 | `DATE: 25-11-2024` falls back to today |
| OcrExamples.DateLineMatch | apps/expenses/ocr_service.py:38-41 | `DATE: ` and a two-field, four-digit-year token match at the start, longest, capturing the token, whatever non-digit follows |
| OcrExamples.MatchAtShift | apps/expenses/ocr_service.py:38 | a date match in the tail of a text is a match of the whole text at the shifted positions |
| OcrExamples.FirstDateLineFound | apps/expenses/ocr_service.py:38-41 | in `DATE: 13-25-2024 DATE: 01/02/2024` the match at the start captures `13-25-2024`, and no longer token |
| OcrExamples.SecondDateLineMatches | apps/expenses/ocr_service.py:38 | the second `DATE` line matches too |
| OcrExamples.Thirteen | apps/expenses/ocr_service.py:42-44 | `13` is no month |
| OcrExamples.MonthFirstSlashReading | apps/expenses/ocr_service.py:42-47 | a slash token of 2024 whose first field is a month is read month first |
| OcrExamples.SecondOfJanuaryToken | apps/expenses/ocr_service.py:42-47 | `01/02/2024` reads as 2 January 2024 |
| OcrExamples.UnreadableFirstDateGivesToday | apps/expenses/ocr_service.py:37-47 | `DATE: 13-25-2024 DATE: 01/02/2024` reports today although the second date reads as 2 January 2024 |
| Calendar.DaysInMonth | apps/expenses/ocr_service.py:44 | months have 28 to 31 days |
| Calendar.DaysBeforeYear | apps/ai_services/utils.py:14 | every year after year 1 starts after some days |
| Calendar.Ordinal | apps/ai_services/utils.py:14 | day numbers start at 1 on 1 January of year 1 |
| Calendar.MonthsFillYear | apps/ai_services/utils.py:14 | the twelve months fill the year |
| Calendar.PrevMonthEnd | apps/ai_services/utils.py:14 | the last day of the previous month is a valid date one ordinal before the first of a month |
| Calendar.PrevYearEnd | apps/ai_services/utils.py:14 | 31 December of the previous year is a valid date one ordinal before 1 January |
| Calendar.PrevDay | apps/ai_services/utils.py:14 | the previous day is a valid date one ordinal lower, and is missing only before 1 January of year 1 |
| Calendar.MinusDays | apps/ai_services/utils.py:14 | `today - timedelta(days=n)` exists exactly when `n` is below today's ordinal, and is then a valid date `n` ordinals earlier |
| Calendar.DaysBeforeMonthBound | apps/ai_services/utils.py:14-17 | the days before a month leave room for that month within the year |
| Calendar.DaysBeforeYearMonotone | apps/ai_services/utils.py:14-17 | a later year starts after the whole of an earlier one |
| Calendar.DaysBeforeMonthMonotone | apps/ai_services/utils.py:14-17 | a later month starts after the whole of an earlier one |
| Calendar.OnOrBeforeIffOrdinal | apps/ai_services/utils.py:17 | comparing dates field by field is comparing ordinals |
| Ledger.Select | apps/core/views.py:35-39 | a filter keeps exactly the matching expenses, never more than it was given |
| Ledger.Matches | apps/core/views.py:35-39 | every query but the name lookup keeps only its owner's expenses, and the dated ones nothing before their start date |
| Ledger.SelectAppend | apps/core/views.py:35-39 | filtering distributes over concatenation |
| Ledger.Total | apps/core/views.py:42-44 | no rows give 0; amounts never negative give a total that is not negative, and never positive a total that is not positive |
| Ledger.TotalAppend | apps/core/views.py:42-44 | the sum of a concatenation is the sum of the sums |
| Ledger.TotalNonNegative | apps/core/views.py:42-44 | non-negative amounts sum to a non-negative total |
| Ledger.SumOfQueryStep | apps/core/views.py:74-79 | one more expense adds its amount to a filtered sum exactly when it matches |
| Ledger.SumOfNoMatch | apps/core/views.py:74-79 | with no matching expense the filter is empty |
| Ledger.QuerySumBounds | apps/core/views.py:74-79 | a filtered sum is 0 with no matches and non-negative when the matching amounts are |
| Ledger.Spent | apps/core/views.py:74-79 | a budget's spent figure is 0 when nothing falls in its category and period, and non-negative when those amounts are |
| Ledger.IsActive | apps/core/views.py:65-69 | a budget is active when it is the user's and its period covers today, so an active budget's period is never empty |
| Ledger.ActiveBudgets | apps/core/views.py:65-69 | exactly the user's budgets whose period covers today |
| Ledger.ActiveBudgetsAppend | apps/core/views.py:65-69 | the budget query distributes over concatenation, so the active budgets come in their stored order |
| Ledger.ActiveBudgetsOne | apps/core/views.py:65-69 | a single budget is kept exactly when it is active |
| Dashboard.Percentage | apps/core/views.py:81 | the percentage times the limit is 100 times spent for a positive limit, and 0 otherwise |
| Dashboard.PercentageAtLeast | apps/core/views.py:81-88 | comparing the percentage with a bound is comparing `100 * spent` with the bound times the limit |
| Dashboard.StatusThresholds | apps/core/views.py:88 | the 100% and 80% thresholds in integer form |
| Dashboard.StatusOf | apps/core/views.py:88 | danger exactly when a positive limit is reached, warning exactly from four fifths of it, success otherwise and always for a limit that is not positive |
| Dashboard.RoundedTenths | apps/core/views.py:87 | the rounded percentage is within half a tenth of the exact one, and on a tie it is even |
| Dashboard.NearestMultiple | apps/core/views.py:87 | rounding a quotient half to even lands on the nearest multiple, the even one on a tie |
| Dashboard.RoundedTenthsUnique | apps/core/views.py:87 | any tenth strictly within half a tenth of the percentage is the rounded value |
| Dashboard.StatusRow | apps/core/views.py:74-89 | spent plus remaining is the limit, and the row is danger exactly when a positive limit has nothing remaining |
| Dashboard.StatusRows | apps/core/views.py:72-89 | one row per budget, in budget order |
| Dashboard.DashboardContext | apps/core/views.py:23-112 | a failed query gives the zero context with the loading message; otherwise no message, the total and count of the month-to-date query, and one row per active budget, in query order, each the status row of its budget |
| Dashboard.MonthToDate | apps/core/views.py:31-39 | the month's expenses are the user's of the same year and month up to today's day |
| Dashboard.MonthFiguresStep | apps/core/views.py:35-47 | recording an expense adds its amount to the month's total and one to its count exactly when it is the user's and dated from the first of the month through today |
| Dashboard.MonthFiguresBounds | apps/core/views.py:41-47 | no expense of the user this month gives a zero total and count; amounts never negative give a total that is not negative |
| Dashboard.EveryActiveBudgetHasRow | apps/core/views.py:65-89 | every active budget gets a row whose spent is its own category-and-period sum |
| Insights.AlertPercentage | apps/ai_services/utils.py:59 | the percentage times the limit is 100 times spent |
| Insights.AlertPercentageAtLeast | apps/ai_services/utils.py:59-61 | the threshold test in integer form, turned round for a negative limit |
| Insights.Qualifies | apps/ai_services/utils.py:61 | a budget alerts exactly when `100 * spent` reaches threshold times a positive limit, or stays at or below it for a negative one |
| Insights.TruncDiv | apps/ai_services/utils.py:62 | `int()` of the quotient: its magnitude is the quotient of the magnitudes, and its sign is that of the exact quotient (zero when the magnitude is) |
| Insights.TruncDivBounds | apps/ai_services/utils.py:62 | the truncated magnitude is the largest whose multiple of the divisor does not exceed the dividend, in magnitude |
| Insights.DivBounds | apps/ai_services/utils.py:62 | integer quotient bounds |
| Insights.FloorOfQuotient | apps/ai_services/utils.py:62 | the floor of a non-negative rational quotient is the integer quotient |
| Insights.QuotientMagnitude | apps/ai_services/utils.py:62 | a rational quotient is the quotient of magnitudes, up to sign |
| Insights.PercentUsed | apps/ai_services/utils.py:62 | `int(percentage)` is `100 * spent` divided by the limit, rounded toward zero |
| Insights.AlertMessage | apps/ai_services/utils.py:62 | the message contains the category name and the rendered percentage |
| Insights.Alerts | apps/ai_services/utils.py:51-83 | a successful run holds at most one message per budget |
| Insights.PrependAppend | apps/ai_services/utils.py:83 | appending alerts in two steps is appending them at once |
| Insights.AlertsStep | apps/ai_services/utils.py:51-83 | one budget's step contributes its message when it alerts and nothing otherwise |
| Insights.CheckBudgetAlerts | apps/ai_services/utils.py:42-85 | the loop returns exactly the recursive definition over the budgets active today |
| Insights.AlertsFailIff | apps/ai_services/utils.py:59 | the check fails exactly when some active budget has a zero limit |
| Insights.AlertsContents | apps/ai_services/utils.py:51-83 | when no active budget has a zero limit the run succeeds, and its messages are exactly those of the budgets whose percentage reaches their threshold |
| Insights.ActiveIgnoresFlag | apps/ai_services/utils.py:47 | the active-budget filter does not look at `alert_enabled` |
| Insights.SpentIgnoresFlag | apps/ai_services/utils.py:52-57 | the spent sum does not look at `alert_enabled` |
| Insights.SelectSameMatches | apps/ai_services/utils.py:52-57 | filters that accept the same expenses select the same rows |
| Insights.AlertsIgnoreFlag | apps/ai_services/utils.py:51-83 | the alert run does not look at `alert_enabled` |
| Insights.AlertEnabledIgnored | apps/ai_services/utils.py:42-85 | budgets differing only in `alert_enabled` give the same result: the flag never suppresses an alert |
| Insights.Breakdown | apps/ai_services/utils.py:21-22 | the breakdown has a key exactly for each category name among the week's expenses |
| Insights.MoneyText | apps/ai_services/utils.py:37 | the rendered total is `0` exactly for a zero total and starts with `-` exactly for a negative one |
| Insights.MoneyTextRoundTrip | apps/ai_services/utils.py:37 | the rendered total reads back as the total |
| Insights.WeeklyMessage | apps/ai_services/utils.py:37 | the message shows the total after a dollar sign |
| Insights.WeeklySummaryOf | apps/ai_services/utils.py:9-40 | fails exactly when seven days before today does not exist; otherwise the period ends today and starts seven days earlier, the total is that of the user's expenses dated from the start, the message quotes the total, the breakdown maps exactly the category names of those expenses, each to the total of that category's expenses among them, and the comparison is the fixed 15% increase |
| Insights.WeekWindow | apps/ai_services/utils.py:14-17 | an expense is in the week exactly when it is the user's and dated no earlier than seven days ago, with no upper bound |
| Insights.SumByNameStep | apps/ai_services/utils.py:21-22 | one more expense adds its amount to the per-name sums exactly when its name is listed |
| Insights.SumByNameEmpty | apps/ai_services/utils.py:21-22 | no expenses give zero per-name sums |
| Insights.SumByNameCoversTotal | apps/ai_services/utils.py:18-22 | per-name sums over distinct names covering every expense add up to the total |
| Insights.SumValuesOfBreakdown | apps/ai_services/utils.py:21-22 | summing the breakdown's values is summing the per-name totals |
| Insights.BreakdownAddsUp | apps/ai_services/utils.py:18-22 | however its keys are enumerated, the breakdown adds up to the week's total |
| Insights.WeeklyBreakdownAddsUp | apps/ai_services/utils.py:17-22 | the summary's breakdown values, read in any order of its keys, add up to the summary's total |
| Insights.WeeklyFiguresBounds | apps/ai_services/utils.py:17-22 | nothing of the user's in the week gives a zero total and an empty breakdown; amounts never negative give a total that is not negative |
| Insights.WeeklyTotalStep | apps/ai_services/utils.py:17-18 | recording an expense adds its amount to the week's total exactly when it is the user's and dated on or after the start of the week |

## Left out

- `perform_receipt_ocr` (the image read by Tesseract and its mock-data fallback) is left out. It is I/O and a foreign library. The model starts from the transcript text.
- Characters outside ASCII are left out. The model does not cover Unicode case mapping in `upper()` or Unicode whitespace in `\s` and `strip()`.
- `Decimal`'s 28-significant-digit context is not modelled. Percentages are exact rationals. Rounding the quotient `spent / limit` to 28 significant digits moves it by about one part in 10^27 of its size. A threshold comparison, `int()` or `round(…, 1)` of the percentage changes only when the percentage moves by at least one over the limit in cents. The quotient moves that far only for a spent total of about 10^25 cents, whatever the limit. With ten-digit amount fields, that takes some 10^15 expenses in one budget.
- Insights.PercentUsed: exact truncation of the rational percentage. It ignores the `Decimal` context rounding above.
- Dashboard.RoundedTenths: exact round-half-even of the rational percentage. It ignores the `Decimal` context rounding above.
- `spending_by_category` and `recent_expenses` in the dashboard are left out. Both are ORM orderings with `[:5]` slices and joins to category icon and colour, and they only feed the template.
- `current_month` (`strftime('%B %Y')`) is left out. It is a display label from the clock.
- The `print` of the dashboard's exception is left out. What makes a query fail is also left out: it is represented by the absent store.
- The float fields are left out. These are `float(total_spent)`, `prediction_next_week`, the `float()` breakdown values, and `round(float(percentage), 1)` in the alert data.
- Insights.Breakdown: values are exact cent totals, not the floats the source stores.
- Storing `AIInsight` rows and the `json.dumps` of their data are left out. The generators return what would be stored. When the alert check raises, the rows already written for earlier budgets are not modelled.
- Insights.MoneyText: renders a non-zero total with two decimals. This assumes the database returns `Sum` over the two-place decimal field at that scale.
- Insights.Alerts: the order of active budgets is the order of the given sequence. The budget query has no `order_by` and no model ordering.
- The weekly breakdown assumes grouping by category name alone, as current Django versions do. Old versions that grouped by model ordering fields are not modelled.
- `strptime` is modelled only on the token shapes the date regex can capture: digit fields and `/` or `-`.
- The Django views, forms, URL routing, authentication and model classes outside the fields listed here are not part of this model.

=== FILE: calendar.dfy ===
/** Proleptic Gregorian dates as Python's `datetime.date` handles them:
    years 1 to 9999, day counting by ordinal (1 January of year 1 is day 1). */
module Calendar {
  import opened Wrappers

  datatype Date = Date(year: int, month: int, day: int)

  const MinYear: int := 1
  const MaxYear: int := 9999

  predicate IsLeapYear(y: int) {
    y % 4 == 0 && (y % 100 != 0 || y % 400 == 0)
  }

  function DaysInMonth(y: int, m: int): (n: int)
    requires 1 <= m <= 12
    ensures 28 <= n <= 31
  {
    if m == 2 then (if IsLeapYear(y) then 29 else 28)
    else if m == 4 || m == 6 || m == 9 || m == 11 then 30
    else 31
  }

  /** What `datetime.date(y, m, d)` accepts without raising `ValueError`. */
  predicate ValidDate(d: Date) {
    MinYear <= d.year <= MaxYear && 1 <= d.month <= 12 && 1 <= d.day <= DaysInMonth(d.year, d.month)
  }

  /** Date order as Python compares dates: year, then month, then day. */
  predicate OnOrBefore(a: Date, b: Date) {
    a.year < b.year || (a.year == b.year && (a.month < b.month || (a.month == b.month && a.day <= b.day)))
  }

  function YearLength(y: int): int {
    if IsLeapYear(y) then 366 else 365
  }

  function DaysBeforeYear(y: int): (n: nat)
    requires y >= 1
    ensures y > 1 ==> n > 0
    decreases y
  {
    if y == 1 then 0 else DaysBeforeYear(y - 1) + YearLength(y - 1)
  }

  function DaysBeforeMonth(y: int, m: int): (n: nat)
    requires 1 <= m <= 12
    ensures m > 1 ==> n > 0
    decreases m
  {
    if m == 1 then 0 else DaysBeforeMonth(y, m - 1) + DaysInMonth(y, m - 1)
  }

  /** `date.toordinal()`. */
  function Ordinal(d: Date): (n: int)
    requires ValidDate(d)
    ensures n >= 1
    ensures n == 1 <==> d == Date(1, 1, 1)
  {
    DaysBeforeYear(d.year) + DaysBeforeMonth(d.year, d.month) + d.day
  }

  lemma MonthsFillYear(y: int)
    ensures DaysBeforeMonth(y, 12) + DaysInMonth(y, 12) == YearLength(y)
  {
  }

  /** The last day of the previous month is the day before the first. */
  lemma PrevMonthEnd(d: Date)
    requires ValidDate(d) && d.day == 1 && d.month > 1
    ensures var p := Date(d.year, d.month - 1, DaysInMonth(d.year, d.month - 1));
      ValidDate(p) && Ordinal(p) == Ordinal(d) - 1
  {
  }

  /** 31 December of the previous year is the day before 1 January. */
  lemma PrevYearEnd(d: Date)
    requires ValidDate(d) && d.day == 1 && d.month == 1 && d.year > MinYear
    ensures ValidDate(Date(d.year - 1, 12, 31)) && Ordinal(Date(d.year - 1, 12, 31)) == Ordinal(d) - 1
  {
    MonthsFillYear(d.year - 1);
  }

  /** The day before `d`, or `None` below `date.min` (Python raises
      `OverflowError` there). */
  function PrevDay(d: Date): (r: Option<Date>)
    requires ValidDate(d)
    ensures r.None? <==> d == Date(1, 1, 1)
    ensures r.Some? ==> ValidDate(r.value) && Ordinal(r.value) == Ordinal(d) - 1
  {
    if d.day > 1 then Some(Date(d.year, d.month, d.day - 1))
    else if d.month > 1 then
      PrevMonthEnd(d);
      Some(Date(d.year, d.month - 1, DaysInMonth(d.year, d.month - 1)))
    else if d.year > MinYear then
      PrevYearEnd(d);
      Some(Date(d.year - 1, 12, 31))
    else None
  }

  /** `d - timedelta(days=n)`: the date whose ordinal is `n` smaller, which
      exists exactly when that ordinal is still at least 1. */
  function MinusDays(d: Date, n: nat): (r: Option<Date>)
    requires ValidDate(d)
    ensures r.Some? <==> n < Ordinal(d)
    ensures r.Some? ==> ValidDate(r.value) && Ordinal(r.value) == Ordinal(d) - n
    decreases n
  {
    if n == 0 then Some(d)
    else match PrevDay(d)
      case None => None
      case Some(p) => MinusDays(p, n - 1)
  }

  /** Days in the months before `m` stay below the year length minus the
      month's own days. */
  lemma {:induction false} DaysBeforeMonthBound(y: int, m: int)
    requires 1 <= m <= 12
    ensures DaysBeforeMonth(y, m) + DaysInMonth(y, m) <= YearLength(y)
    decreases 12 - m
  {
    if m < 12 {
      DaysBeforeMonthBound(y, m + 1);
    }
  }

  lemma {:induction false} DaysBeforeYearMonotone(a: int, b: int)
    requires 1 <= a < b
    ensures DaysBeforeYear(a) + YearLength(a) <= DaysBeforeYear(b)
    decreases b - a
  {
    if a + 1 < b {
      DaysBeforeYearMonotone(a + 1, b);
    }
  }

  lemma {:induction false} DaysBeforeMonthMonotone(y: int, a: int, b: int)
    requires 1 <= a < b <= 12
    ensures DaysBeforeMonth(y, a) + DaysInMonth(y, a) <= DaysBeforeMonth(y, b)
    decreases b - a
  {
    if a + 1 < b {
      DaysBeforeMonthMonotone(y, a + 1, b);
    }
  }

  /** Comparing dates is comparing ordinals, so a window bound such as
      "on or after `today - 7 days`" is a bound on day numbers. */
  lemma OnOrBeforeIffOrdinal(a: Date, b: Date)
    requires ValidDate(a) && ValidDate(b)
    ensures OnOrBefore(a, b) <==> Ordinal(a) <= Ordinal(b)
  {
    if a.year < b.year {
      DaysBeforeMonthBound(a.year, a.month);
      DaysBeforeYearMonotone(a.year, b.year);
    } else if b.year < a.year {
      DaysBeforeMonthBound(b.year, b.month);
      DaysBeforeYearMonotone(b.year, a.year);
    } else if a.month < b.month {
      DaysBeforeMonthMonotone(a.year, a.month, b.month);
    } else if b.month < a.month {
      DaysBeforeMonthMonotone(a.year, b.month, a.month);
    }
  }
}

=== FILE: dashboard.dfy ===
/** The user dashboard's figures: the month-to-date total and count, and one
    status row per active budget with its spent amount, what remains, the
    percentage used and a traffic-light status. The request clock is the
    parameter `today`; a failing query is the absent store. */
module Dashboard {
  import opened Wrappers
  import opened Calendar
  import opened Ledger

  /** The status label the template colours a budget row with. */
  datatype Status = Danger | Warning | Success {
    function Name(): string {
      match this
      case Danger => "danger"
      case Warning => "warning"
      case Success => "success"
    }
  }

  /** `spent / limit * 100`, guarded: a limit that is not positive gives 0. */
  function Percentage(spent: int, limit: int): (p: real)
    ensures limit <= 0 ==> p == 0.0
    ensures limit > 0 ==> p * (limit as real) == 100.0 * (spent as real)
  {
    if limit > 0 then 100.0 * (spent as real) / (limit as real) else 0.0
  }

  /** With a positive limit, comparing the percentage with a bound `k` is
      comparing `100 * spent` with `k * limit`. */
  lemma PercentageAtLeast(spent: int, limit: int, k: int)
    requires limit > 0
    ensures Percentage(spent, limit) >= k as real <==> 100 * spent >= k * limit
  {
    var p := Percentage(spent, limit);
    var l := limit as real;
    assert p * l == 100.0 * (spent as real);
    if p >= k as real {
      assert p * l >= (k as real) * l;
    } else {
      assert p * l < (k as real) * l;
    }
  }

  lemma StatusThresholds(spent: int, limit: int)
    ensures limit > 0 ==> (Percentage(spent, limit) >= 100.0 <==> spent >= limit)
    ensures limit > 0 ==> (Percentage(spent, limit) >= 80.0 <==> 5 * spent >= 4 * limit)
  {
    if limit > 0 {
      PercentageAtLeast(spent, limit, 100);
      PercentageAtLeast(spent, limit, 80);
    }
  }

  /** The status: danger from 100%, warning from 80%, success below. Stated
      without percentages: danger exactly when a positive limit is reached,
      warning when four fifths of it are, success otherwise (always for a
      limit that is not positive). */
  function StatusOf(spent: int, limit: int): (s: Status)
    ensures s == Danger <==> limit > 0 && spent >= limit
    ensures s == Warning <==> limit > 0 && spent < limit && 5 * spent >= 4 * limit
    ensures s == Status.Success <==> limit <= 0 || 5 * spent < 4 * limit
  {
    StatusThresholds(spent, limit);
    var p := Percentage(spent, limit);
    if p >= 100.0 then Danger else if p >= 80.0 then Warning else Status.Success
  }

  /** `round(percentage, 1)` counted in tenths of a percent. The result is the
      nearest tenth to the exact percentage and, on a tie, the even one
      (Python's `round` on a `Decimal`); 0 when the limit is not positive. */
  function RoundedTenths(spent: int, limit: int): (t: int)
    ensures limit <= 0 ==> t == 0
    ensures limit > 0 ==> 2 * Abs(t * limit - 1000 * spent) <= limit
    ensures limit > 0 && 2 * Abs(t * limit - 1000 * spent) == limit ==> t % 2 == 0
  {
    if limit <= 0 then 0
    else
      var q := (1000 * spent) / limit;
      var r := (1000 * spent) % limit;
      var t := if 2 * r < limit then q
        else if 2 * r > limit then q + 1
        else if q % 2 == 0 then q
        else q + 1;
      NearestMultiple(1000 * spent, limit, t);
      t
  }

  /** Rounding `a / l` half to even lands on the multiple of `l` nearest to
      `a`, and on the even one of the two when they are equally near. */
  lemma NearestMultiple(a: int, l: int, t: int)
    requires l > 0
    requires t == if 2 * (a % l) < l then a / l
      else if 2 * (a % l) > l then a / l + 1
      else if (a / l) % 2 == 0 then a / l
      else a / l + 1
    ensures 2 * Abs(t * l - a) <= l
    ensures 2 * Abs(t * l - a) == l ==> t % 2 == 0
  {
    DivisionResidue(a, l);
  }

  /** How far the two multiples of `l` around `a` lie from it. */
  lemma DivisionResidue(a: int, l: int)
    requires l > 0
    ensures 0 <= a % l < l
    ensures (a / l) * l - a == -(a % l)
    ensures (a / l + 1) * l - a == l - a % l
  {
    assert (a / l + 1) * l == (a / l) * l + l;
  }

  /** A non-zero multiple of a positive number is at least that number in
      magnitude. */
  lemma MultipleMagnitude(k: int, l: int)
    requires l > 0
    ensures k >= 1 ==> k * l >= l
    ensures k <= -1 ==> k * l <= -l
  {
    assert k * l - l == (k - 1) * l;
    assert k * l + l == (k + 1) * l;
  }

  lemma DifferenceOfMultiples(t: int, u: int, l: int, a: int)
    ensures (t * l - a) - (u * l - a) == (t - u) * l
  {
  }

  /** The nearest-tenth property pins the rounded value down except on a tie. */
  lemma RoundedTenthsUnique(spent: int, limit: int, t: int)
    requires limit > 0
    requires 2 * Abs(t * limit - 1000 * spent) < limit
    ensures RoundedTenths(spent, limit) == t
  {
    var u := RoundedTenths(spent, limit);
    var a := 1000 * spent;
    var x, y := t * limit - a, u * limit - a;
    assert 2 * Abs(y) <= limit;
    assert -limit < x - y < limit;
    DifferenceOfMultiples(t, u, limit, a);
    MultipleMagnitude(t - u, limit);
  }

  /** One row of `budget_status`. */
  datatype BudgetStatus = BudgetStatus(
    budget: Budget,
    spent: int,
    remaining: int,
    percentTenths: int,
    status: Status)

  function StatusRow(es: seq<Expense>, owner: int, b: Budget): (row: BudgetStatus)
    ensures row.budget == b
    ensures row.spent + row.remaining == b.limit
    ensures row.status == Danger <==> b.limit > 0 && row.remaining <= 0
  {
    var spent := Spent(es, owner, b);
    BudgetStatus(b, spent, b.limit - spent, RoundedTenths(spent, b.limit), StatusOf(spent, b.limit))
  }

  /** One row per budget, in the order the budgets come. */
  function StatusRows(es: seq<Expense>, owner: int, bs: seq<Budget>): (rows: seq<BudgetStatus>)
    ensures |rows| == |bs|
    ensures forall i :: 0 <= i < |bs| ==> rows[i] == StatusRow(es, owner, bs[i])
  {
    if bs == [] then [] else [StatusRow(es, owner, bs[0])] + StatusRows(es, owner, bs[1..])
  }

  /** The rows the queries read. */
  datatype Store = Store(expenses: seq<Expense>, budgets: seq<Budget>)

  /** The template context. `errorMessage` is present only on the fallback. */
  datatype Context = Context(
    totalSpent: int,
    expenseCount: nat,
    budgetStatus: seq<BudgetStatus>,
    errorMessage: Option<string>)

  const LoadingMessage: string := "Dashboard is loading. Please add some expenses to see your data."

  /** `today.replace(day=1)`. */
  function FirstOfMonth(d: Date): Date {
    Date(d.year, d.month, 1)
  }

  /** The expenses counted as this month's: the user's, dated from the first of
      the current month through today. */
  function MonthQuery(user: int, today: Date): Query {
    DatedBetween(user, FirstOfMonth(today), today)
  }

  /** The dashboard: without a store (a query raised) the fallback context;
      otherwise the month-to-date sum and count and one status row per
      budget active today. */
  function DashboardContext(store: Option<Store>, user: int, today: Date): (c: Context)
    ensures store.None? ==> c == Context(0, 0, [], Some(LoadingMessage))
    ensures store.Some? ==> c.errorMessage.None?
    ensures store.Some? ==> c.expenseCount <= |store.value.expenses|
    ensures store.Some? ==> var month := Select(store.value.expenses, MonthQuery(user, today));
      c.totalSpent == Total(month) && c.expenseCount == |month|
    ensures store.Some? ==>
      |c.budgetStatus| == |ActiveBudgets(store.value.budgets, user, today)|
      && (forall row :: row in c.budgetStatus ==>
            row.budget in store.value.budgets && IsActive(user, today, row.budget)
            && row.spent + row.remaining == row.budget.limit)
    ensures store.Some? ==> var active := ActiveBudgets(store.value.budgets, user, today);
      forall i :: 0 <= i < |c.budgetStatus| ==> i < |active| && c.budgetStatus[i] == StatusRow(store.value.expenses, user, active[i])
  {
    match store
    case None => Context(0, 0, [], Some(LoadingMessage))
    case Some(s) =>
      var month := Select(s.expenses, MonthQuery(user, today));
      Context(Total(month), |month|, StatusRows(s.expenses, user, ActiveBudgets(s.budgets, user, today)), None)
  }

  /** On a real calendar day, the month-to-date window holds exactly the
      user's expenses of the same year and month dated no later than today. */
  lemma MonthToDate(user: int, today: Date, e: Expense)
    requires ValidDate(e.date)
    ensures Matches(MonthQuery(user, today), e) <==>
      e.user == user && e.date.year == today.year && e.date.month == today.month
      && e.date.day <= today.day
  {
  }

  /** The month-to-date figures, one expense at a time: recording an expense
      adds its amount to the total, and one to the count, exactly when it is
      the user's and dated from the first of the month through today. */
  lemma MonthFiguresStep(s: Store, e: Expense, user: int, today: Date)
    ensures var before := DashboardContext(Some(s), user, today);
      var after := DashboardContext(Some(Store(s.expenses + [e], s.budgets)), user, today);
      && after.totalSpent == before.totalSpent + (if Matches(MonthQuery(user, today), e) then e.amount else 0)
      && after.expenseCount == before.expenseCount + (if Matches(MonthQuery(user, today), e) then 1 else 0)
  {
    var q := MonthQuery(user, today);
    SumOfQueryStep(s.expenses, e, q);
    SelectAppend(s.expenses, [e], q);
    assert Select([e], q) == (if Matches(q, e) then [e] else []) by {
      assert [e][..0] == [];
    }
  }

  /** No expense of the user this month means a zero total and count; amounts
      that are never negative give a total that is not negative. */
  lemma MonthFiguresBounds(s: Store, user: int, today: Date)
    ensures var c := DashboardContext(Some(s), user, today);
      && ((forall e :: e in s.expenses ==> !Matches(MonthQuery(user, today), e)) ==> c.totalSpent == 0 && c.expenseCount == 0)
      && ((forall e :: e in s.expenses ==> e.amount >= 0) ==> c.totalSpent >= 0)
  {
    var q := MonthQuery(user, today);
    QuerySumBounds(s.expenses, q);
    if forall e :: e in s.expenses ==> !Matches(q, e) {
      SumOfNoMatch(s.expenses, q);
    }
  }

  /** Every active budget gets a row, and its spent figure is the sum over its
      own category and period. */
  lemma EveryActiveBudgetHasRow(s: Store, user: int, today: Date, b: Budget)
    requires b in s.budgets && IsActive(user, today, b)
    ensures exists row :: (row in DashboardContext(Some(s), user, today).budgetStatus
                           && row.budget == b && row.spent == Spent(s.expenses, user, b))
  {
    var active := ActiveBudgets(s.budgets, user, today);
    var i :| 0 <= i < |active| && active[i] == b;
    var rows := DashboardContext(Some(s), user, today).budgetStatus;
    assert rows[i] == StatusRow(s.expenses, user, b);
    assert rows[i] in rows;
  }
}

=== FILE: insights.dfy ===
/** The insight generators: budget alerts over the budgets active today, and
    the weekly spending summary. The clock is the parameter `today`; the
    insight rows they store are left to the caller, so each generator returns
    what it would store. */
module Insights {
  import opened Wrappers
  import opened Text
  import opened Calendar
  import opened Ledger
  import OcrAmount

  // ---------------------------------------------------------------------------
  // Budget alerts
  // ---------------------------------------------------------------------------

  /** `(spent / limit) * 100` with no guard: the caller must rule out a zero
      limit, which raises in the source. */
  function AlertPercentage(spent: int, limit: int): (p: real)
    requires limit != 0
    ensures p * (limit as real) == 100.0 * (spent as real)
  {
    100.0 * (spent as real) / (limit as real)
  }

  lemma AlertPercentageAtLeast(spent: int, limit: int, k: int)
    requires limit != 0
    ensures limit > 0 ==> (AlertPercentage(spent, limit) >= k as real <==> 100 * spent >= k * limit)
    ensures limit < 0 ==> (AlertPercentage(spent, limit) >= k as real <==> 100 * spent <= k * limit)
  {
    var p := AlertPercentage(spent, limit);
    var l := limit as real;
    assert p * l == 100.0 * (spent as real);
    if p >= k as real {
      if limit > 0 {
        assert p * l >= (k as real) * l;
      } else {
        assert p * l <= (k as real) * l;
      }
    } else {
      if limit > 0 {
        assert p * l < (k as real) * l;
      } else {
        assert p * l > (k as real) * l;
      }
    }
  }

  /** `percentage >= budget.alert_threshold`. Without percentages: for a
      positive limit, `100 * spent` reaches `threshold * limit`; for a negative
      limit the comparison turns round. */
  function Qualifies(spent: int, limit: int, threshold: int): (q: bool)
    requires limit != 0
    ensures limit > 0 ==> (q <==> 100 * spent >= threshold * limit)
    ensures limit < 0 ==> (q <==> 100 * spent <= threshold * limit)
  {
    AlertPercentageAtLeast(spent, limit, threshold);
    AlertPercentage(spent, limit) >= threshold as real
  }

  /** Integer division rounding toward zero, as C and Python's `int()` of a
      quotient do (Dafny's `/` rounds the other way for negative operands):
      the quotient of the magnitudes, negated when the signs differ. */
  function TruncDiv(a: int, b: int): (q: int)
    requires b != 0
    ensures Abs(q) == Abs(a) / Abs(b)
    ensures q > 0 ==> (a > 0) == (b > 0)
    ensures q < 0 ==> (a > 0) != (b > 0)
  {
    var m := Abs(a) / Abs(b);
    assert a == 0 ==> m == 0;
    if (a < 0) != (b < 0) then -m else m
  }

  /** The truncated quotient is the largest magnitude whose multiple of the
      divisor does not pass the dividend. */
  lemma TruncDivBounds(a: int, b: int)
    requires b != 0
    ensures Abs(TruncDiv(a, b)) * Abs(b) <= Abs(a) < (Abs(TruncDiv(a, b)) + 1) * Abs(b)
  {
    DivBounds(Abs(a), Abs(b));
  }

  lemma DivBounds(a: nat, b: nat)
    requires b > 0
    ensures (a / b) * b <= a < (a / b + 1) * b
  {
    var q := a / b;
    assert a == q * b + a % b;
    assert (q + 1) * b == q * b + b;
  }

  /** A rational quotient of naturals is the integer quotient plus a
      fraction of the remainder. */
  lemma QuotientSplit(a: nat, b: nat)
    requires b > 0
    ensures (a as real) / (b as real) == ((a / b) as real) + ((a % b) as real) / (b as real)
  {
    var q, r := a / b, a % b;
    assert a == q * b + r;
    assert (a as real) == (q as real) * (b as real) + (r as real);
  }

  lemma FractionBelowOne(r: nat, b: nat)
    requires r < b
    ensures 0.0 <= (r as real) / (b as real) < 1.0
  {
  }

  /** `(A / B).Floor` on naturals is the integer quotient. */
  lemma FloorOfQuotient(a: nat, b: nat)
    requires b > 0
    ensures ((a as real) / (b as real)).Floor == a / b
  {
    QuotientSplit(a, b);
    FractionBelowOne(a % b, b);
  }

  /** The percentage's sign-and-size split: it is `|a| / |b|` up to sign. */
  lemma QuotientMagnitude(a: int, b: int)
    requires b != 0
    ensures var x := (a as real) / (b as real);
      (x >= 0.0 <==> (a >= 0) == (b > 0) || a == 0)
      && (x >= 0.0 ==> x == (Abs(a) as real) / (Abs(b) as real))
      && (x < 0.0 ==> -x == (Abs(a) as real) / (Abs(b) as real))
  {
  }

  /** `int(percentage)`: the percentage truncated toward zero, which is the
      integer quotient of `100 * spent` by the limit rounded toward zero. */
  function PercentUsed(spent: int, limit: int): (n: int)
    requires limit != 0
    ensures n == TruncDiv(100 * spent, limit)
  {
    QuotientMagnitude(100 * spent, limit);
    FloorOfQuotient(Abs(100 * spent), Abs(limit));
    var p := AlertPercentage(spent, limit);
    if p >= 0.0 then p.Floor else -((-p).Floor)
  }

  /** The alert text; the sign is U+26A0 followed by the emoji selector U+FE0F. */
  function AlertMessage(percent: int, categoryName: string): (m: string)
    ensures Contains(m, categoryName)
    ensures Contains(m, IntToString(percent))
  {
    var head := "\U{26A0}\U{FE0F} Budget Alert: You've used ";
    var m := head + IntToString(percent) + "% of your " + categoryName + " budget!";
    assert OccursAt(m, IntToString(percent), |head|);
    assert OccursAt(m, categoryName, |head| + |IntToString(percent)| + 10);
    m
  }

  /** The one way the check fails: a zero limit makes the division raise
      (`DivisionByZero`, or `InvalidOperation` when nothing was spent). */
  datatype AlertError = ZeroLimit

  function BudgetAlert(es: seq<Expense>, user: int, b: Budget): string
    requires b.limit != 0
  {
    AlertMessage(PercentUsed(Spent(es, user, b), b.limit), b.category.name)
  }

  predicate Alerting(es: seq<Expense>, user: int, b: Budget)
    requires b.limit != 0
  {
    Qualifies(Spent(es, user, b), b.limit, b.alertThreshold)
  }

  /** The messages for `bs`, in order: one per budget whose percentage reaches
      its threshold; the first zero limit aborts the whole run. */
  function Alerts(es: seq<Expense>, user: int, bs: seq<Budget>): (r: Result<seq<string>, AlertError>)
    ensures r.Success? ==> |r.value| <= |bs|
    decreases |bs|
  {
    if bs == [] then Success([])
    else if bs[0].limit == 0 then Failure(ZeroLimit)
    else
      var rest := Alerts(es, user, bs[1..]);
      if rest.Failure? then rest
      else if Alerting(es, user, bs[0]) then Success([BudgetAlert(es, user, bs[0])] + rest.value)
      else rest
  }

  /** `alerts` followed by the outcome of the remaining budgets. */
  function Prepend(alerts: seq<string>, r: Result<seq<string>, AlertError>): Result<seq<string>, AlertError> {
    if r.Failure? then r else Success(alerts + r.value)
  }

  lemma PrependAppend(a: seq<string>, b: seq<string>, r: Result<seq<string>, AlertError>)
    ensures Prepend(a, Prepend(b, r)) == Prepend(a + b, r)
  {
    if r.Success? {
      assert a + (b + r.value) == (a + b) + r.value;
    }
  }

  /** One budget's step of the run. */
  lemma AlertsStep(es: seq<Expense>, user: int, bs: seq<Budget>)
    requires bs != [] && bs[0].limit != 0
    ensures Alerts(es, user, bs)
      == Prepend(if Alerting(es, user, bs[0]) then [BudgetAlert(es, user, bs[0])] else [], Alerts(es, user, bs[1..]))
  {
    var rest := Alerts(es, user, bs[1..]);
    if rest.Success? {
      assert [] + rest.value == rest.value;
    }
  }

  /** `check_budget_alerts`: the alert messages for the user's budgets active
      on `today`, checked in the order the budgets come. */
  method CheckBudgetAlerts(es: seq<Expense>, bs: seq<Budget>, user: int, today: Date)
    returns (r: Result<seq<string>, AlertError>)
    ensures r == Alerts(es, user, ActiveBudgets(bs, user, today))
  {
    var active := ActiveBudgets(bs, user, today);
    var generated: seq<string> := [];
    var i := 0;
    assert active[0..] == active;
    assert Prepend([], Alerts(es, user, active)) == Alerts(es, user, active) by {
      if Alerts(es, user, active).Success? {
        assert [] + Alerts(es, user, active).value == Alerts(es, user, active).value;
      }
    }
    while i < |active|
      invariant 0 <= i <= |active|
      invariant Alerts(es, user, active) == Prepend(generated, Alerts(es, user, active[i..]))
    {
      var b := active[i];
      if b.limit == 0 {
        return Failure(ZeroLimit);
      }
      AlertsStep(es, user, active[i..]);
      assert active[i..][1..] == active[i + 1..];
      var spent := Spent(es, user, b);
      var step: seq<string> := [];
      if Qualifies(spent, b.limit, b.alertThreshold) {
        step := [AlertMessage(PercentUsed(spent, b.limit), b.category.name)];
      }
      PrependAppend(generated, step, Alerts(es, user, active[i + 1..]));
      generated := generated + step;
      i := i + 1;
    }
    assert active[i..] == [];
    assert generated + [] == generated;
    return Success(generated);
  }

  /** The run fails exactly when some budget has a zero limit. */
  lemma {:induction false} AlertsFailIff(es: seq<Expense>, user: int, bs: seq<Budget>)
    ensures Alerts(es, user, bs).Failure? <==> exists i :: 0 <= i < |bs| && bs[i].limit == 0
    decreases |bs|
  {
    if bs != [] {
      AlertsFailIff(es, user, bs[1..]);
      if exists i :: 0 <= i < |bs[1..]| && bs[1..][i].limit == 0 {
        var i :| 0 <= i < |bs[1..]| && bs[1..][i].limit == 0;
        assert bs[i + 1].limit == 0;
      }
      if exists i :: 0 <= i < |bs| && bs[i].limit == 0 {
        var i :| 0 <= i < |bs| && bs[i].limit == 0;
        if i > 0 {
          assert bs[1..][i - 1].limit == 0;
        }
      }
    }
  }

  /** With no zero limit the run succeeds and holds exactly the messages of
      the alerting budgets. */
  lemma {:induction false} AlertsContents(es: seq<Expense>, user: int, bs: seq<Budget>, m: string)
    requires forall i :: 0 <= i < |bs| ==> bs[i].limit != 0
    ensures Alerts(es, user, bs).Success?
    ensures m in Alerts(es, user, bs).value <==>
      exists b :: b in bs && Alerting(es, user, b) && m == BudgetAlert(es, user, b)
    decreases |bs|
  {
    AlertsFailIff(es, user, bs);
    if bs != [] {
      AlertsContents(es, user, bs[1..], m);
      assert forall b :: b in bs <==> b == bs[0] || b in bs[1..];
    }
  }

  /** Two budget lists that differ at most in their `alert_enabled` flags. */
  predicate SameExceptFlag(bs: seq<Budget>, cs: seq<Budget>) {
    |bs| == |cs| && forall i :: 0 <= i < |bs| ==> cs[i] == bs[i].(alertEnabled := cs[i].alertEnabled)
  }

  lemma {:induction false} ActiveIgnoresFlag(bs: seq<Budget>, cs: seq<Budget>, user: int, today: Date)
    requires SameExceptFlag(bs, cs)
    ensures SameExceptFlag(ActiveBudgets(bs, user, today), ActiveBudgets(cs, user, today))
    decreases |bs|
  {
    if bs != [] {
      var n := |bs| - 1;
      assert SameExceptFlag(bs[..n], cs[..n]);
      ActiveIgnoresFlag(bs[..n], cs[..n], user, today);
      assert IsActive(user, today, bs[n]) == IsActive(user, today, cs[n]);
    }
  }

  lemma {:induction false} AlertsIgnoreFlag(es: seq<Expense>, user: int, bs: seq<Budget>, cs: seq<Budget>)
    requires SameExceptFlag(bs, cs)
    ensures Alerts(es, user, bs) == Alerts(es, user, cs)
    decreases |bs|
  {
    if bs != [] {
      assert SameExceptFlag(bs[1..], cs[1..]);
      AlertsIgnoreFlag(es, user, bs[1..], cs[1..]);
      assert Spent(es, user, bs[0]) == Spent(es, user, cs[0]) by {
        assert InBudget(user, bs[0]) != InBudget(user, cs[0]) ==> bs[0] != cs[0];
        SpentIgnoresFlag(es, user, bs[0], cs[0]);
      }
    }
  }

  lemma SpentIgnoresFlag(es: seq<Expense>, user: int, b: Budget, c: Budget)
    requires c == b.(alertEnabled := c.alertEnabled)
    ensures Spent(es, user, b) == Spent(es, user, c)
  {
    SelectSameMatches(es, InBudget(user, b), InBudget(user, c));
  }

  lemma {:induction false} SelectSameMatches(es: seq<Expense>, q: Query, r: Query)
    requires forall e :: Matches(q, e) == Matches(r, e)
    ensures Select(es, q) == Select(es, r)
    decreases |es|
  {
    if es != [] {
      SelectSameMatches(es[..|es| - 1], q, r);
    }
  }

  /** Turning a budget's alerts off changes nothing: the flag is never read. */
  lemma AlertEnabledIgnored(es: seq<Expense>, bs: seq<Budget>, cs: seq<Budget>, user: int, today: Date)
    requires SameExceptFlag(bs, cs)
    ensures Alerts(es, user, ActiveBudgets(bs, user, today)) == Alerts(es, user, ActiveBudgets(cs, user, today))
  {
    ActiveIgnoresFlag(bs, cs, user, today);
    AlertsIgnoreFlag(es, user, ActiveBudgets(bs, user, today), ActiveBudgets(cs, user, today));
  }

  // ---------------------------------------------------------------------------
  // Weekly summary
  // ---------------------------------------------------------------------------

  /** The fixed week-on-week comparison the summary reports. */
  datatype Comparison = Comparison(changePercentage: int, trend: string)

  const FixedComparison: Comparison := Comparison(15, "increased")

  /** What the summary stores: the week's total, the per-category-name totals,
      the comparison, the message and the period. */
  datatype WeeklySummary = WeeklySummary(
    totalSpent: int,
    breakdown: map<string, int>,
    comparison: Comparison,
    message: string,
    periodStart: Date,
    periodEnd: Date)

  /** `today - timedelta(days=7)` falls before `date.min`. */
  datatype SummaryError = DateOverflow

  /** The names of the categories the expenses fall in. */
  function NamesOf(es: seq<Expense>): set<string> {
    set e | e in es :: e.category.name
  }

  /** `{name: total}` grouped by category name. */
  function Breakdown(es: seq<Expense>): (m: map<string, int>)
    ensures forall n :: n in m <==> exists e :: e in es && e.category.name == n
  {
    map n | n in NamesOf(es) :: Total(Select(es, CategoryNamed(n)))
  }

  /** How `str()` renders the stored total: `0` for no spending (the `or 0`),
      otherwise the two-decimal amount with a minus sign when negative. */
  function MoneyText(cents: int): (s: string)
    ensures cents == 0 <==> s == "0"
    ensures |s| >= 1 && (cents < 0 <==> s[0] == '-')
  {
    if cents == 0 then "0"
    else if cents < 0 then "-" + OcrAmount.FormatCents(-cents)
    else OcrAmount.FormatCents(cents)
  }

  /** The rendered amount reads back as the amount. */
  lemma MoneyTextRoundTrip(cents: int)
    ensures cents > 0 ==> OcrAmount.DecimalCents(MoneyText(cents)) == Some(cents)
    ensures cents < 0 ==> OcrAmount.DecimalCents(MoneyText(cents)[1..]) == Some(-cents)
  {
    if cents > 0 {
      OcrAmount.FormatCentsRoundTrip(cents);
    } else if cents < 0 {
      assert MoneyText(cents)[1..] == OcrAmount.FormatCents(-cents);
      OcrAmount.FormatCentsRoundTrip(-cents);
    }
  }

  function WeeklyMessage(total: int): (m: string)
    ensures Contains(m, "$" + MoneyText(total))
  {
    var m := "You spent $" + MoneyText(total) + " this week. Check your breakdown!";
    assert OccursAt(m, "$" + MoneyText(total), 10);
    m
  }

  /** `generate_weekly_summary`: the user's expenses dated on or after seven
      days before `today` (with no upper bound), their total and breakdown;
      a failure when that start date does not exist. */
  function WeeklySummaryOf(es: seq<Expense>, user: int, today: Date): (r: Result<WeeklySummary, SummaryError>)
    requires ValidDate(today)
    ensures r.Failure? <==> Ordinal(today) <= 7
    ensures r.Success? ==>
      r.value.periodEnd == today && ValidDate(r.value.periodStart)
      && Ordinal(r.value.periodStart) + 7 == Ordinal(today)
      && r.value.comparison == Comparison(15, "increased")
    ensures r.Success? ==>
      var week := DatedFrom(user, r.value.periodStart);
      && r.value.totalSpent == Total(Select(es, week))
      && r.value.message == WeeklyMessage(r.value.totalSpent)
      && (forall n :: n in r.value.breakdown <==> exists e :: e in es && Matches(week, e) && e.category.name == n)
      && forall n :: n in r.value.breakdown ==> r.value.breakdown[n] == Total(Select(Select(es, week), CategoryNamed(n)))
  {
    match MinusDays(today, 7)
    case None => Failure(DateOverflow)
    case Some(start) =>
      var week := Select(es, DatedFrom(user, start));
      var total := Total(week);
      Success(WeeklySummary(total, Breakdown(week), FixedComparison, WeeklyMessage(total), start, today))
  }

  /** An expense is in the week exactly when it is the user's and dated no
      earlier than seven days before today; expenses dated after today count. */
  lemma WeekWindow(es: seq<Expense>, user: int, today: Date, e: Expense)
    requires ValidDate(today) && ValidDate(e.date)
    requires WeeklySummaryOf(es, user, today).Success?
    ensures Matches(DatedFrom(user, WeeklySummaryOf(es, user, today).value.periodStart), e) <==>
      e.user == user && Ordinal(e.date) >= Ordinal(today) - 7
  {
    OnOrBeforeIffOrdinal(WeeklySummaryOf(es, user, today).value.periodStart, e.date);
  }

  // The breakdown adds up to the total.

  predicate NoDuplicates(names: seq<string>) {
    forall i, j :: 0 <= i < j < |names| ==> names[i] != names[j]
  }

  /** The per-name totals of `es` for the names listed, added up. */
  function SumByName(es: seq<Expense>, names: seq<string>): int
    decreases |names|
  {
    if names == [] then 0 else Total(Select(es, CategoryNamed(names[0]))) + SumByName(es, names[1..])
  }

  lemma {:induction false} SumByNameStep(es: seq<Expense>, e: Expense, names: seq<string>)
    requires NoDuplicates(names)
    ensures SumByName(es + [e], names) == SumByName(es, names) + (if e.category.name in names then e.amount else 0)
    decreases |names|
  {
    if names != [] {
      SumOfQueryStep(es, e, CategoryNamed(names[0]));
      assert NoDuplicates(names[1..]) by {
        forall i, j | 0 <= i < j < |names[1..]| ensures names[1..][i] != names[1..][j] {
          assert names[1..][i] == names[i + 1] && names[1..][j] == names[j + 1];
        }
      }
      SumByNameStep(es, e, names[1..]);
      if e.category.name == names[0] {
        assert e.category.name !in names[1..] by {
          forall k | 0 <= k < |names[1..]| ensures names[1..][k] != names[0] {
            assert names[1..][k] == names[k + 1];
          }
        }
      } else {
        assert e.category.name in names <==> e.category.name in names[1..];
      }
    }
  }

  lemma {:induction false} SumByNameEmpty(names: seq<string>)
    ensures SumByName([], names) == 0
    decreases |names|
  {
    if names != [] {
      SumByNameEmpty(names[1..]);
    }
  }

  lemma {:induction false} SumByNameCoversTotal(es: seq<Expense>, names: seq<string>)
    requires NoDuplicates(names)
    requires forall e :: e in es ==> e.category.name in names
    ensures SumByName(es, names) == Total(es)
    decreases |es|
  {
    if es == [] {
      SumByNameEmpty(names);
    } else {
      var init := es[..|es| - 1];
      var last := es[|es| - 1];
      assert es == init + [last];
      assert forall e :: e in init ==> e in es;
      SumByNameCoversTotal(init, names);
      SumByNameStep(init, last, names);
    }
  }

  /** The breakdown's values read in any order of its keys. */
  function SumValues(m: map<string, int>, names: seq<string>): int
    requires forall n :: n in names ==> n in m
    decreases |names|
  {
    if names == [] then 0 else m[names[0]] + SumValues(m, names[1..])
  }

  lemma {:induction false} SumValuesOfBreakdown(es: seq<Expense>, names: seq<string>)
    requires forall n :: n in names ==> n in Breakdown(es)
    ensures SumValues(Breakdown(es), names) == SumByName(es, names)
    decreases |names|
  {
    if names != [] {
      SumValuesOfBreakdown(es, names[1..]);
    }
  }

  /** However its keys are enumerated, the category breakdown adds up to the
      week's total. */
  lemma BreakdownAddsUp(es: seq<Expense>, names: seq<string>)
    requires NoDuplicates(names)
    requires forall n :: n in names <==> n in Breakdown(es)
    ensures SumValues(Breakdown(es), names) == Total(es)
  {
    SumValuesOfBreakdown(es, names);
    forall e | e in es ensures e.category.name in names {
      assert e.category.name in Breakdown(es);
    }
    SumByNameCoversTotal(es, names);
  }

  /** The summary's breakdown adds up to its total, whatever order its
      category names are read in. */
  lemma WeeklyBreakdownAddsUp(es: seq<Expense>, user: int, today: Date, names: seq<string>)
    requires ValidDate(today)
    requires WeeklySummaryOf(es, user, today).Success?
    requires NoDuplicates(names)
    requires forall n :: n in names <==> n in WeeklySummaryOf(es, user, today).value.breakdown
    ensures forall n :: n in names ==> n in WeeklySummaryOf(es, user, today).value.breakdown
    ensures SumValues(WeeklySummaryOf(es, user, today).value.breakdown, names) == WeeklySummaryOf(es, user, today).value.totalSpent
  {
    var start := WeeklySummaryOf(es, user, today).value.periodStart;
    BreakdownAddsUp(Select(es, DatedFrom(user, start)), names);
  }

  /** Nothing of the user's in the week gives a zero total and an empty
      breakdown; amounts that are never negative give a total that is not
      negative. */
  lemma WeeklyFiguresBounds(es: seq<Expense>, user: int, today: Date)
    requires ValidDate(today)
    requires WeeklySummaryOf(es, user, today).Success?
    ensures var r := WeeklySummaryOf(es, user, today).value;
      && ((forall e :: e in es ==> !Matches(DatedFrom(user, r.periodStart), e)) ==> r.totalSpent == 0 && r.breakdown == map[])
      && ((forall e :: e in es ==> e.amount >= 0) ==> r.totalSpent >= 0)
  {
    var q := DatedFrom(user, WeeklySummaryOf(es, user, today).value.periodStart);
    QuerySumBounds(es, q);
    if forall e :: e in es ==> !Matches(q, e) {
      SumOfNoMatch(es, q);
    }
  }

  /** The week's total, one expense at a time: recording an expense adds its
      amount exactly when it is the user's and dated on or after the start of
      the week. */
  lemma WeeklyTotalStep(es: seq<Expense>, e: Expense, user: int, today: Date)
    requires ValidDate(today)
    requires WeeklySummaryOf(es, user, today).Success?
    ensures var before := WeeklySummaryOf(es, user, today).value;
      var after := WeeklySummaryOf(es + [e], user, today);
      && after.Success?
      && after.value.totalSpent == before.totalSpent + (if Matches(DatedFrom(user, before.periodStart), e) then e.amount else 0)
  {
    SumOfQueryStep(es, e, DatedFrom(user, WeeklySummaryOf(es, user, today).value.periodStart));
  }
}

=== FILE: ledger.dfy ===
/** The stored records the budget views read, and the ORM queries they run
    (`filter(...)` and `aggregate(Sum('amount'))`), over in-memory sequences
    in query order. Amounts are integer cents and may be negative: the model
    fields carry no validator. */
module Ledger {
  import opened Calendar

  datatype Category = Category(id: int, name: string)

  datatype Expense = Expense(user: int, category: Category, amount: int, date: Date)

  datatype Budget = Budget(
    user: int,
    category: Category,
    limit: int,
    startDate: Date,
    endDate: Date,
    alertEnabled: bool,
    alertThreshold: int)

  /** The expense filters the views use. Categories compare by key, as
      `category=budget.category` does. */
  datatype Query =
    | InBudget(owner: int, budget: Budget)
    | DatedBetween(owner: int, from: Date, to: Date)
    | DatedFrom(owner: int, from: Date)
    | CategoryNamed(name: string)

  /** Every query but the name lookup is scoped to one user, and the dated
      ones start at their `from` date. */
  predicate Matches(q: Query, e: Expense)
    ensures Matches(q, e) && !q.CategoryNamed? ==> e.user == q.owner
    ensures Matches(q, e) && (q.DatedBetween? || q.DatedFrom?) ==> OnOrBefore(q.from, e.date)
  {
    match q
    case InBudget(owner, b) =>
      e.user == owner && e.category.id == b.category.id
      && OnOrBefore(b.startDate, e.date) && OnOrBefore(e.date, b.endDate)
    case DatedBetween(owner, from, to) =>
      e.user == owner && OnOrBefore(from, e.date) && OnOrBefore(e.date, to)
    case DatedFrom(owner, from) =>
      e.user == owner && OnOrBefore(from, e.date)
    case CategoryNamed(name) =>
      e.category.name == name
  }

  /** `Expense.objects.filter(...)`: the matching expenses, in order. */
  function Select(es: seq<Expense>, q: Query): (r: seq<Expense>)
    ensures |r| <= |es|
    ensures forall e :: e in r <==> e in es && Matches(q, e)
  {
    if es == [] then []
    else Select(es[..|es| - 1], q) + (if Matches(q, es[|es| - 1]) then [es[|es| - 1]] else [])
  }

  lemma {:induction false} SelectAppend(a: seq<Expense>, b: seq<Expense>, q: Query)
    ensures Select(a + b, q) == Select(a, q) + Select(b, q)
    decreases |b|
  {
    if b == [] {
      assert a + b == a;
    } else {
      var init, last := b[..|b| - 1], b[|b| - 1];
      var tail := if Matches(q, last) then [last] else [];
      assert (a + b)[..|a + b| - 1] == a + init;
      assert (a + b)[|a + b| - 1] == last;
      assert Select(a + b, q) == Select(a + init, q) + tail;
      SelectAppend(a, init, q);
      assert Select(b, q) == Select(init, q) + tail;
      assert Select(a, q) + Select(init, q) + tail == Select(a, q) + (Select(init, q) + tail);
    }
  }

  /** `aggregate(Sum('amount'))['total'] or 0`: the sum of the amounts, 0 for
      no rows. */
  function Total(es: seq<Expense>): (t: int)
    ensures es == [] ==> t == 0
    ensures (forall i :: 0 <= i < |es| ==> es[i].amount >= 0) ==> t >= 0
    ensures (forall i :: 0 <= i < |es| ==> es[i].amount <= 0) ==> t <= 0
  {
    if es == [] then 0 else Total(es[..|es| - 1]) + es[|es| - 1].amount
  }

  lemma {:induction false} TotalAppend(a: seq<Expense>, b: seq<Expense>)
    ensures Total(a + b) == Total(a) + Total(b)
    decreases |b|
  {
    if b == [] {
      assert a + b == a;
    } else {
      assert (a + b)[..|a + b| - 1] == a + b[..|b| - 1];
      TotalAppend(a, b[..|b| - 1]);
    }
  }

  lemma {:induction false} TotalNonNegative(es: seq<Expense>)
    requires forall e :: e in es ==> e.amount >= 0
    ensures Total(es) >= 0
    decreases |es|
  {
    if es != [] {
      assert forall e :: e in es[..|es| - 1] ==> e in es;
      TotalNonNegative(es[..|es| - 1]);
    }
  }

  /** The filtered sum, one expense at a time: appending an expense adds its
      amount exactly when it matches, and nothing matching means 0. */
  lemma SumOfQueryStep(es: seq<Expense>, e: Expense, q: Query)
    ensures Total(Select(es + [e], q)) == Total(Select(es, q)) + (if Matches(q, e) then e.amount else 0)
  {
    SelectAppend(es, [e], q);
    assert Select([e], q) == (if Matches(q, e) then [e] else []) by {
      assert [e][..0] == [];
    }
    TotalAppend(Select(es, q), Select([e], q));
    assert Total([e]) == e.amount by {
      assert [e][..0] == [];
    }
  }

  lemma {:induction false} SumOfNoMatch(es: seq<Expense>, q: Query)
    requires forall e :: e in es ==> !Matches(q, e)
    ensures Select(es, q) == []
    decreases |es|
  {
    if es != [] {
      assert forall e :: e in es[..|es| - 1] ==> e in es;
      SumOfNoMatch(es[..|es| - 1], q);
    }
  }

  /** What a budget has consumed: the owner's expenses in its category dated
      within its period, both ends included; 0 when there are none. */
  function Spent(es: seq<Expense>, owner: int, b: Budget): (s: int)
    ensures (forall e :: e in es ==> !Matches(InBudget(owner, b), e)) ==> s == 0
    ensures (forall e :: e in es && Matches(InBudget(owner, b), e) ==> e.amount >= 0) ==> s >= 0
  {
    QuerySumBounds(es, InBudget(owner, b));
    Total(Select(es, InBudget(owner, b)))
  }

  lemma QuerySumBounds(es: seq<Expense>, q: Query)
    ensures (forall e :: e in es ==> !Matches(q, e)) ==> Total(Select(es, q)) == 0
    ensures (forall e :: e in es && Matches(q, e) ==> e.amount >= 0) ==> Total(Select(es, q)) >= 0
  {
    if forall e :: e in es ==> !Matches(q, e) {
      SumOfNoMatch(es, q);
    }
    if forall e :: e in es && Matches(q, e) ==> e.amount >= 0 {
      TotalNonNegative(Select(es, q));
    }
  }

  /** A budget is active on `today` when its period covers that day. */
  predicate IsActive(owner: int, today: Date, b: Budget)
    ensures IsActive(owner, today, b) ==> OnOrBefore(b.startDate, b.endDate)
  {
    b.user == owner && OnOrBefore(b.startDate, today) && OnOrBefore(today, b.endDate)
  }

  /** `Budget.objects.filter(user=..., start_date__lte=today, end_date__gte=today)`. */
  function ActiveBudgets(bs: seq<Budget>, owner: int, today: Date): (r: seq<Budget>)
    ensures |r| <= |bs|
    ensures forall b :: b in r <==> b in bs && IsActive(owner, today, b)
  {
    if bs == [] then []
    else ActiveBudgets(bs[..|bs| - 1], owner, today)
         + (if IsActive(owner, today, bs[|bs| - 1]) then [bs[|bs| - 1]] else [])
  }

  /** The active filter keeps query order: it distributes over
      concatenation, and a single budget stays exactly when it is active. */
  lemma {:induction false} ActiveBudgetsAppend(a: seq<Budget>, b: seq<Budget>, owner: int, today: Date)
    ensures ActiveBudgets(a + b, owner, today) == ActiveBudgets(a, owner, today) + ActiveBudgets(b, owner, today)
    decreases |b|
  {
    if b == [] {
      assert a + b == a;
    } else {
      var init, last := b[..|b| - 1], b[|b| - 1];
      var tail := if IsActive(owner, today, last) then [last] else [];
      assert (a + b)[..|a + b| - 1] == a + init;
      assert (a + b)[|a + b| - 1] == last;
      assert ActiveBudgets(a + b, owner, today) == ActiveBudgets(a + init, owner, today) + tail;
      ActiveBudgetsAppend(a, init, owner, today);
      assert ActiveBudgets(b, owner, today) == ActiveBudgets(init, owner, today) + tail;
      assert ActiveBudgets(a, owner, today) + ActiveBudgets(init, owner, today) + tail
          == ActiveBudgets(a, owner, today) + (ActiveBudgets(init, owner, today) + tail);
    }
  }

  lemma ActiveBudgetsOne(b: Budget, owner: int, today: Date)
    ensures ActiveBudgets([b], owner, today) == if IsActive(owner, today, b) then [b] else []
  {
    assert [b][..0] == [];
  }

  /** Magnitude of an amount. */
  function Abs(x: int): nat {
    if x < 0 then -x else x
  }
}

=== FILE: ocr_amount.dfy ===
/** The total-amount step of `parse_ocr_text`: the leftmost match of
    `(TOTAL|BALANCE|AMOUNT)\s*([\d,\.]+\.\d{2})` in the normalised text,
    then `Decimal(token.replace(',', ''))`, with `0.00` when either fails.
    Amounts are integer cents. */
module OcrAmount {
  import opened Wrappers
  import opened Text

  /** The class `[\d,\.]`. */
  predicate IsAmountChar(c: char) { IsDigit(c) || c == ',' || c == '.' }

  /** `text[..e]` ends with `\.\d{2}`. */
  predicate EndsWithCents(text: string, e: int) {
    3 <= e <= |text| && text[e - 3] == '.' && IsDigit(text[e - 2]) && IsDigit(text[e - 1])
  }

  /** Keyword `kw` occurs at `p` and only whitespace (`\s*`) lies between
      its end and `w`. */
  predicate KeywordThenSpace(text: string, p: int, kw: string, w: int) {
    OccursAt(text, kw, p) && p + |kw| <= w <= |text|
    && forall k :: p + |kw| <= k < w ==> IsSpace(text[k])
  }

  /** The regex matches starting at `p` with its second group `text[w..e]`:
      the declarative reading of the pattern, one disjunct per alternative. */
  predicate MatchAt(text: string, p: int, w: int, e: int)
    ensures MatchAt(text, p, w, e) ==> 0 <= p && p + 5 <= w && w + 4 <= e <= |text|
  {
    (KeywordThenSpace(text, p, "TOTAL", w) || KeywordThenSpace(text, p, "BALANCE", w)
     || KeywordThenSpace(text, p, "AMOUNT", w))
    && w + 4 <= e <= |text|
    && (forall k :: w <= k < e ==> IsAmountChar(text[k]))
    && EndsWithCents(text, e)
  }

  /** A match: where the keyword starts and where the amount token lies. */
  datatype AmountMatch = AmountMatch(start: nat, tokenStart: nat, tokenEnd: nat)

  /** Length of the alternative that matches at `p`, 0 when none does. */
  function KeywordLength(text: string, p: nat): (n: nat)
    ensures n == 0 || p + n <= |text|
  {
    if OccursAt(text, "TOTAL", p) then 5
    else if OccursAt(text, "BALANCE", p) then 7
    else if OccursAt(text, "AMOUNT", p) then 6
    else 0
  }

  /** Largest `e'` in `[w + 4, e]` where `\.\d{2}` ends: the end that the
      greedy `[\d,\.]+` settles on after backtracking. */
  function LastCentsEnd(text: string, w: nat, e: nat): (r: Option<nat>)
    requires w <= e <= |text|
    ensures r.Some? ==> w + 4 <= r.value <= e && EndsWithCents(text, r.value)
    ensures forall e' :: w + 4 <= e' <= e && (r.None? || r.value < e') ==> !EndsWithCents(text, e')
    decreases e
  {
    if e < w + 4 then None
    else if EndsWithCents(text, e) then Some(e)
    else LastCentsEnd(text, w, e - 1)
  }

  /** Any match at `p` has its token start right after the maximal run of
      whitespace that follows the keyword, and its token inside the maximal
      run of `[\d,\.]` from there. */
  lemma MatchAtIsForced(text: string, p: nat, w: int, e: int)
    requires MatchAt(text, p, w, e)
    ensures KeywordLength(text, p) > 0
    ensures p + KeywordLength(text, p) <= w
    ensures w == RunEnd(text, p + KeywordLength(text, p), IsSpace)
    ensures e <= RunEnd(text, w, IsAmountChar)
  {
    var n := KeywordLength(text, p);
    if OccursAt(text, "TOTAL", p) {
      assert text[p] == text[p..p + 5][0] == 'T';
    } else if OccursAt(text, "BALANCE", p) {
      assert text[p] == text[p..p + 7][0] == 'B';
    } else {
      assert text[p] == text[p..p + 6][0] == 'A';
    }
    assert KeywordThenSpace(text, p, "TOTAL", w) ==> text[p] == text[p..p + 5][0] == 'T';
    assert KeywordThenSpace(text, p, "BALANCE", w) ==> text[p] == text[p..p + 7][0] == 'B';
    assert KeywordThenSpace(text, p, "AMOUNT", w) ==> text[p] == text[p..p + 6][0] == 'A';
    assert !IsSpace(text[w]);
    RunEndUnique(text, p + n, IsSpace, w);
  }

  /** Leftmost search from `p`, as `re.search` does: the first start with a
      match, and at that start the longest token. */
  function SearchAmount(text: string, p: nat): (r: Option<AmountMatch>)
    requires p <= |text|
    ensures r.Some? ==> p <= r.value.start && MatchAt(text, r.value.start, r.value.tokenStart, r.value.tokenEnd)
    ensures r.Some? ==> forall e :: r.value.tokenEnd < e ==> !MatchAt(text, r.value.start, r.value.tokenStart, e)
    ensures forall q, w, e :: p <= q && (r.None? || q < r.value.start) ==> !MatchAt(text, q, w, e)
    decreases |text| - p
  {
    if p == |text| then None
    else
      var n := KeywordLength(text, p);
      if n == 0 then
        NoMatchWithoutKeyword(text, p);
        var r := SearchAmount(text, p + 1);
        NothingBefore(text, p, r);
        r
      else
        var w := RunEnd(text, p + n, IsSpace);
        var run := RunEnd(text, w, IsAmountChar);
        match LastCentsEnd(text, w, run)
        case Some(e) =>
          Greedy(text, p, w, e);
          KeywordFound(text, p, w, e);
          Some(AmountMatch(p, w, e))
        case None =>
          NoMatchWithoutCents(text, p);
          var r := SearchAmount(text, p + 1);
          NothingBefore(text, p, r);
          r
  }

  /** No match at `p` extends the search from `p + 1` back to `p`. */
  lemma NothingBefore(text: string, p: nat, r: Option<AmountMatch>)
    requires forall w, e :: !MatchAt(text, p, w, e)
    requires forall q, w, e :: p + 1 <= q && (r.None? || q < r.value.start) ==> !MatchAt(text, q, w, e)
    ensures forall q, w, e :: p <= q && (r.None? || q < r.value.start) ==> !MatchAt(text, q, w, e)
  {
  }

  lemma NoMatchWithoutKeyword(text: string, p: nat)
    requires p <= |text| && KeywordLength(text, p) == 0
    ensures forall w, e :: !MatchAt(text, p, w, e)
  {
    forall w, e | MatchAt(text, p, w, e)
      ensures false
    {
      MatchAtIsForced(text, p, w, e);
    }
  }

  lemma NoMatchWithoutCents(text: string, p: nat)
    requires p <= |text| && KeywordLength(text, p) > 0
    requires var w := RunEnd(text, p + KeywordLength(text, p), IsSpace);
             LastCentsEnd(text, w, RunEnd(text, w, IsAmountChar)).None?
    ensures forall w, e :: !MatchAt(text, p, w, e)
  {
    forall w, e | MatchAt(text, p, w, e)
      ensures false
    {
      MatchAtIsForced(text, p, w, e);
    }
  }

  lemma Greedy(text: string, p: nat, w: nat, e: nat)
    requires p <= |text| && KeywordLength(text, p) > 0
    requires w == RunEnd(text, p + KeywordLength(text, p), IsSpace)
    requires LastCentsEnd(text, w, RunEnd(text, w, IsAmountChar)) == Some(e)
    ensures forall e' :: e < e' ==> !MatchAt(text, p, w, e')
  {
    forall e' | e < e' && MatchAt(text, p, w, e')
      ensures false
    {
      MatchAtIsForced(text, p, w, e');
    }
  }

  lemma KeywordFound(text: string, p: nat, w: nat, e: nat)
    requires p <= |text| && KeywordLength(text, p) > 0
    requires w == RunEnd(text, p + KeywordLength(text, p), IsSpace)
    requires LastCentsEnd(text, w, RunEnd(text, w, IsAmountChar)) == Some(e)
    ensures MatchAt(text, p, w, e)
  {
  }

  /** `re.search` over the whole text. */
  function FindAmount(text: string): (r: Option<AmountMatch>)
    ensures r.Some? ==> MatchAt(text, r.value.start, r.value.tokenStart, r.value.tokenEnd)
    ensures r.Some? ==> forall e :: r.value.tokenEnd < e ==> !MatchAt(text, r.value.start, r.value.tokenStart, e)
    ensures forall q, w, e :: (r.None? || q < r.value.start) ==> !MatchAt(text, q, w, e)
  {
    SearchAmount(text, 0)
  }

  /** At one start there is only one longest match. */
  lemma LongestMatchUnique(text: string, p: nat, w1: int, e1: int, w2: int, e2: int)
    requires MatchAt(text, p, w1, e1) && MatchAt(text, p, w2, e2)
    requires forall e :: e1 < e ==> !MatchAt(text, p, w1, e)
    requires forall e :: e2 < e ==> !MatchAt(text, p, w2, e)
    ensures w1 == w2 && e1 == e2
  {
    MatchAtIsForced(text, p, w1, e1);
    MatchAtIsForced(text, p, w2, e2);
  }

  /** The search result is characterised by the pattern alone: whatever
      match is leftmost, and longest at its start, is the one found. */
  lemma FindAmountIsLeftmostLongest(text: string, p: nat, w: int, e: int)
    requires MatchAt(text, p, w, e)
    requires forall q, w', e' :: q < p ==> !MatchAt(text, q, w', e')
    requires forall e' :: e < e' ==> !MatchAt(text, p, w, e')
    ensures FindAmount(text) == Some(AmountMatch(p, w, e))
  {
    var r := FindAmount(text);
    assert r.Some?;
    var m := r.value;
    assert m.start == p;
    LongestMatchUnique(text, p, w, e, m.tokenStart, m.tokenEnd);
  }

  /** `Decimal(s)` for a string of digits and dots ending in `.dd` (the only
      strings the regex lets through once commas are gone): it parses exactly
      when the final dot is the only one, an empty integer part reading as 0. */
  function DecimalCents(s: string): (r: Option<nat>)
    requires DigitsAndDots(s)
    requires EndsWithCents(s, |s|)
    ensures r.Some? <==> forall i :: 0 <= i < |s| - 3 ==> s[i] != '.'
  {
    var whole := s[..|s| - 3];
    if '.' in whole then None
    else
      assert AllDigits(whole);
      assert AllDigits(s[|s| - 2..]);
      Some(100 * DigitsValue(whole) + DigitsValue(s[|s| - 2..]))
  }

  /** `str()` of a non-negative two-place Decimal: integer part, dot, two
      fractional digits. */
  function FormatCents(c: nat): (s: string)
    ensures |s| >= 4 && EndsWithCents(s, |s|)
    ensures forall i :: 0 <= i < |s| ==> IsDigit(s[i]) || (i == |s| - 3 && s[i] == '.')
  {
    NatToString(c / 100) + "." + [DigitChar(c % 100 / 10), DigitChar(c % 10)]
  }

  /** Parsing the rendering of an amount gives the amount back. */
  lemma FormatCentsRoundTrip(c: nat)
    ensures DecimalCents(FormatCents(c)) == Some(c)
  {
    var s := FormatCents(c);
    var whole := NatToString(c / 100);
    assert s[..|s| - 3] == whole;
    NatToStringRoundTrip(c / 100);
    assert '.' !in whole;
    var frac := s[|s| - 2..];
    assert frac == [DigitChar(c % 100 / 10), DigitChar(c % 10)];
    assert frac[..1] == [DigitChar(c % 100 / 10)];
    assert DigitsValue(frac[..1]) == c % 100 / 10 by {
      assert frac[..1][..0] == [];
    }
    assert DigitsValue(frac) == 10 * (c % 100 / 10) + c % 10;
    assert c % 100 == 10 * (c % 100 / 10) + c % 10;
  }

  lemma RemoveCharAbsent(s: string, c: char)
    requires c !in s
    ensures RemoveChar(s, c) == s
  {
    if s != [] {
      RemoveCharAbsent(s[1..], c);
    }
  }

  /** Digits and dots only: what `Decimal` is handed once commas are gone. */
  predicate DigitsAndDots(s: string) {
    forall i :: 0 <= i < |s| ==> IsDigit(s[i]) || s[i] == '.'
  }

  lemma {:induction false} RemoveCommasLeavesDigitsAndDots(t: string)
    requires forall k :: 0 <= k < |t| ==> IsAmountChar(t[k])
    ensures DigitsAndDots(RemoveChar(t, ','))
    decreases |t|
  {
    if t != [] {
      RemoveCommasLeavesDigitsAndDots(t[1..]);
      var rest := RemoveChar(t[1..], ',');
      if t[0] != ',' {
        assert RemoveChar(t, ',') == [t[0]] + rest;
        forall i | 0 < i < |rest| + 1 ensures ([t[0]] + rest)[i] == rest[i - 1] { }
      }
    }
  }

  /** Commas sit before the `.dd` suffix, so dropping them keeps it. */
  lemma RemoveCommasKeepsCents(token: string)
    requires EndsWithCents(token, |token|)
    ensures var s := RemoveChar(token, ','); EndsWithCents(s, |s|)
  {
    var head, tail := token[..|token| - 3], token[|token| - 3..];
    assert token == head + tail;
    RemoveCharAppend(head, tail, ',');
    RemoveCharAbsent(tail, ',');
    var s := RemoveChar(head, ',') + tail;
    assert s[|s| - 3] == tail[0] && s[|s| - 2] == tail[1] && s[|s| - 1] == tail[2];
  }

  /** Dropping the commas of a matched token keeps the `.dd` suffix and
      leaves only digits and dots. */
  lemma StripCommasShape(token: string)
    requires AmountToken(token)
    ensures var s := RemoveChar(token, ',');
            EndsWithCents(s, |s|) && DigitsAndDots(s)
  {
    RemoveCommasKeepsCents(token);
    RemoveCommasLeavesDigitsAndDots(token);
  }

  /** What the second group of the regex can be: at least four characters of
      the class, ending with `.dd`. */
  predicate AmountToken(token: string) {
    |token| >= 4 && EndsWithCents(token, |token|)
    && forall k :: 0 <= k < |token| ==> IsAmountChar(token[k])
  }

  /** A found token is made of the class and ends with `.dd`. */
  lemma FoundTokenShape(text: string, m: AmountMatch)
    requires MatchAt(text, m.start, m.tokenStart, m.tokenEnd)
    ensures AmountToken(text[m.tokenStart..m.tokenEnd])
  {
    var token := text[m.tokenStart..m.tokenEnd];
    forall k | 0 <= k < |token| ensures IsAmountChar(token[k]) {
      assert token[k] == text[m.tokenStart + k];
    }
  }

  /** `Decimal(token.replace(',', ''))` on a captured token, `None` where
      `Decimal` raises: it parses exactly when, commas aside, the final dot is
      the only one. */
  function TokenCents(token: string): (r: Option<nat>)
    requires AmountToken(token)
    ensures var s := RemoveChar(token, ',');
      r.Some? <==> forall i :: 0 <= i < |s| - 3 ==> s[i] != '.'
  {
    StripCommasShape(token);
    DecimalCents(RemoveChar(token, ','))
  }

  /** The amount `parse_ocr_text` reports, in cents: the leftmost match's
      token without commas as a Decimal, or 0 when there is no match or the
      token does not parse (no later match is tried). */
  function ExtractAmount(text: string): (cents: nat)
    ensures FindAmount(text).None? ==> cents == 0
    ensures cents != 0 ==> FindAmount(text).Some?
  {
    match FindAmount(text)
    case None => 0
    case Some(m) =>
      FoundTokenShape(text, m);
      match TokenCents(text[m.tokenStart..m.tokenEnd])
      case None => 0
      case Some(c) => c
  }

  /** The reported amount is fixed by the leftmost, longest match alone: its
      token's value when that parses, and 0 when it does not, whatever later
      matches the text holds. */
  lemma ExtractAmountOfMatch(text: string, p: nat, w: int, e: int)
    requires MatchAt(text, p, w, e)
    requires forall q, w', e' :: q < p ==> !MatchAt(text, q, w', e')
    requires forall e' :: e < e' ==> !MatchAt(text, p, w, e')
    ensures 0 <= w <= e <= |text| && AmountToken(text[w..e])
    ensures TokenCents(text[w..e]).Some? ==> ExtractAmount(text) == TokenCents(text[w..e]).value
    ensures TokenCents(text[w..e]).None? ==> ExtractAmount(text) == 0
  {
    FindAmountIsLeftmostLongest(text, p, w, e);
    FoundTokenShape(text, AmountMatch(p, w, e));
  }
}

=== FILE: ocr_date.dfy ===
/** The date step of `parse_ocr_text`: the leftmost match of
    `DATE[:\s]*(\d{1,2}[\/-]\d{1,2}[\/-]\d{2,4})`, read with the formats
    `%m/%d/%Y`, `%m-%d-%Y`, `%d/%m/%Y`, `%Y/%m/%d` in that order, and today's
    date when there is no match or no format applies. */
module OcrDate {
  import opened Wrappers
  import opened Text
  import opened Calendar

  /** The class `[\/-]`. */
  predicate IsDateSep(c: char) { c == '/' || c == '-' }

  /** The class `[:\s]`. */
  predicate IsColonOrSpace(c: char) { c == ':' || IsSpace(c) }

  predicate DigitsBetween(text: string, i: int, j: int) {
    0 <= i <= j <= |text| && forall k :: i <= k < j ==> IsDigit(text[k])
  }

  /** The regex matches at `p` with its group `text[w..e]`, whose separators
      sit at `s1` and `s2`: the declarative reading of the pattern. */
  predicate MatchAt(text: string, p: int, w: int, s1: int, s2: int, e: int)
    ensures MatchAt(text, p, w, s1, s2, e) ==> 0 <= p && p + 4 <= w && w + 6 <= e <= w + 10 && e <= |text|
  {
    && OccursAt(text, "DATE", p)
    && p + 4 <= w <= |text|
    && (forall k :: p + 4 <= k < w ==> IsColonOrSpace(text[k]))
    && w + 1 <= s1 <= w + 2 && DigitsBetween(text, w, s1)
    && s1 < |text| && IsDateSep(text[s1])
    && s1 + 2 <= s2 <= s1 + 3 && DigitsBetween(text, s1 + 1, s2)
    && s2 < |text| && IsDateSep(text[s2])
    && s2 + 3 <= e <= s2 + 5 && DigitsBetween(text, s2 + 1, e)
  }

  datatype DateMatch = DateMatch(start: nat, tokenStart: nat, sep1: nat, sep2: nat, tokenEnd: nat)

  /** Any match at `p` has its separators where the digit runs end, and its
      year inside the digit run after the second separator. */
  lemma MatchAtIsForced(text: string, p: nat, w: int, s1: int, s2: int, e: int)
    requires MatchAt(text, p, w, s1, s2, e)
    ensures p + 4 <= |text|
    ensures w == RunEnd(text, p + 4, IsColonOrSpace)
    ensures s1 == RunEnd(text, w, IsDigit)
    ensures s2 == RunEnd(text, s1 + 1, IsDigit)
    ensures e <= RunEnd(text, s2 + 1, IsDigit)
  {
    RunEndUnique(text, p + 4, IsColonOrSpace, w);
    RunEndUnique(text, w, IsDigit, s1);
    RunEndUnique(text, s1 + 1, IsDigit, s2);
  }

  function Min(a: int, b: int): int { if a <= b then a else b }

  /** The match the regex engine settles on at `p`, if any: the prefix up
      to each separator is forced, and `\d{2,4}` is greedy. */
  function DateAt(text: string, p: nat): (r: Option<DateMatch>)
    requires p <= |text|
    ensures r.Some? ==> var m := r.value;
      m.start == p && MatchAt(text, p, m.tokenStart, m.sep1, m.sep2, m.tokenEnd)
      && forall e :: m.tokenEnd < e ==> !MatchAt(text, p, m.tokenStart, m.sep1, m.sep2, e)
    ensures r.None? ==> forall w, s1, s2, e :: !MatchAt(text, p, w, s1, s2, e)
  {
    if !OccursAt(text, "DATE", p) then None
    else
      var w := RunEnd(text, p + 4, IsColonOrSpace);
      var s1 := RunEnd(text, w, IsDigit);
      if !(w + 1 <= s1 <= w + 2 && s1 < |text| && IsDateSep(text[s1])) then
        NoMatchBadFirst(text, p, w, s1);
        None
      else
        var s2 := RunEnd(text, s1 + 1, IsDigit);
        if !(s1 + 2 <= s2 <= s1 + 3 && s2 < |text| && IsDateSep(text[s2])) then
          NoMatchBadSecond(text, p, w, s1, s2);
          None
        else
          var run := RunEnd(text, s2 + 1, IsDigit);
          if run < s2 + 3 then
            NoMatchShortYear(text, p, w, s1, s2);
            None
          else
            var e := Min(run, s2 + 5);
            LongestYear(text, p, w, s1, s2, e, run);
            Some(DateMatch(p, w, s1, s2, e))
  }

  /** Leftmost search from `p`, as `re.search` does. */
  function SearchDate(text: string, p: nat): (r: Option<DateMatch>)
    requires p <= |text|
    ensures r.Some? ==> var m := r.value;
      p <= m.start && MatchAt(text, m.start, m.tokenStart, m.sep1, m.sep2, m.tokenEnd)
    ensures r.Some? ==> var m := r.value;
      forall e :: m.tokenEnd < e ==> !MatchAt(text, m.start, m.tokenStart, m.sep1, m.sep2, e)
    ensures forall q, w, s1, s2, e :: p <= q && (r.None? || q < r.value.start) ==> !MatchAt(text, q, w, s1, s2, e)
    decreases |text| - p
  {
    if p == |text| then None
    else match DateAt(text, p)
      case Some(m) => Some(m)
      case None => SearchDate(text, p + 1)
  }

  lemma LongestYear(text: string, p: nat, w: int, s1: int, s2: int, e: int, run: int)
    requires p + 4 <= |text| && w + 1 <= s1 <= w + 2 && s1 + 2 <= s2 <= s1 + 3 && s2 + 3 <= run
    requires w == RunEnd(text, p + 4, IsColonOrSpace) && OccursAt(text, "DATE", p)
    requires s1 == RunEnd(text, w, IsDigit) && s1 < |text| && IsDateSep(text[s1])
    requires s2 == RunEnd(text, s1 + 1, IsDigit) && s2 < |text| && IsDateSep(text[s2])
    requires run == RunEnd(text, s2 + 1, IsDigit) && e == Min(run, s2 + 5)
    ensures MatchAt(text, p, w, s1, s2, e)
    ensures forall e' :: e < e' ==> !MatchAt(text, p, w, s1, s2, e')
  {
    forall e' | e < e' && MatchAt(text, p, w, s1, s2, e')
      ensures false
    {
      MatchAtIsForced(text, p, w, s1, s2, e');
    }
  }

  /** No match at `p` when the first field is not one or two digits and a
      separator. */
  lemma NoMatchBadFirst(text: string, p: nat, w: nat, s1: nat)
    requires p + 4 <= |text| && w == RunEnd(text, p + 4, IsColonOrSpace) && s1 == RunEnd(text, w, IsDigit)
    requires !(w + 1 <= s1 <= w + 2 && s1 < |text| && IsDateSep(text[s1]))
    ensures forall w', s1', s2', e' :: !MatchAt(text, p, w', s1', s2', e')
  {
    forall w', s1', s2', e' | MatchAt(text, p, w', s1', s2', e')
      ensures false
    {
      MatchAtIsForced(text, p, w', s1', s2', e');
    }
  }

  /** No match at `p` when the second field is not one or two digits and a
      separator. */
  lemma NoMatchBadSecond(text: string, p: nat, w: nat, s1: nat, s2: nat)
    requires p + 4 <= |text| && w == RunEnd(text, p + 4, IsColonOrSpace) && s1 == RunEnd(text, w, IsDigit)
    requires s1 < |text| && s2 == RunEnd(text, s1 + 1, IsDigit)
    requires !(s1 + 2 <= s2 <= s1 + 3 && s2 < |text| && IsDateSep(text[s2]))
    ensures forall w', s1', s2', e' :: !MatchAt(text, p, w', s1', s2', e')
  {
    forall w', s1', s2', e' | MatchAt(text, p, w', s1', s2', e')
      ensures false
    {
      MatchAtIsForced(text, p, w', s1', s2', e');
    }
  }

  /** No match at `p` when fewer than two year digits follow. */
  lemma NoMatchShortYear(text: string, p: nat, w: nat, s1: nat, s2: nat)
    requires p + 4 <= |text| && w == RunEnd(text, p + 4, IsColonOrSpace) && s1 == RunEnd(text, w, IsDigit)
    requires s1 < |text| && s2 == RunEnd(text, s1 + 1, IsDigit)
    requires s2 < |text| && RunEnd(text, s2 + 1, IsDigit) < s2 + 3
    ensures forall w', s1', s2', e' :: !MatchAt(text, p, w', s1', s2', e')
  {
    forall w', s1', s2', e' | MatchAt(text, p, w', s1', s2', e')
      ensures false
    {
      MatchAtIsForced(text, p, w', s1', s2', e');
    }
  }

  /** `re.search` over the whole text. */
  function FindDate(text: string): (r: Option<DateMatch>)
    ensures r.Some? ==> var m := r.value; MatchAt(text, m.start, m.tokenStart, m.sep1, m.sep2, m.tokenEnd)
    ensures r.Some? ==> var m := r.value;
      forall e :: m.tokenEnd < e ==> !MatchAt(text, m.start, m.tokenStart, m.sep1, m.sep2, e)
    ensures forall q, w, s1, s2, e :: (r.None? || q < r.value.start) ==> !MatchAt(text, q, w, s1, s2, e)
  {
    SearchDate(text, 0)
  }

  /** At one start there is only one longest match. */
  lemma LongestMatchUnique(text: string, p: nat, w: int, s1: int, s2: int, e: int, m: DateMatch)
    requires MatchAt(text, p, w, s1, s2, e) && MatchAt(text, p, m.tokenStart, m.sep1, m.sep2, m.tokenEnd)
    requires forall e' :: e < e' ==> !MatchAt(text, p, w, s1, s2, e')
    requires forall e' :: m.tokenEnd < e' ==> !MatchAt(text, p, m.tokenStart, m.sep1, m.sep2, e')
    ensures m.tokenStart == w && m.sep1 == s1 && m.sep2 == s2 && m.tokenEnd == e
  {
    MatchAtIsForced(text, p, w, s1, s2, e);
    MatchAtIsForced(text, p, m.tokenStart, m.sep1, m.sep2, m.tokenEnd);
  }

  /** The search result is characterised by the pattern alone. */
  lemma FindDateIsLeftmostLongest(text: string, p: nat, w: int, s1: int, s2: int, e: int)
    requires MatchAt(text, p, w, s1, s2, e)
    requires forall q, w', s1', s2', e' :: q < p ==> !MatchAt(text, q, w', s1', s2', e')
    requires forall e' :: e < e' ==> !MatchAt(text, p, w, s1, s2, e')
    ensures FindDate(text) == Some(DateMatch(p, w, s1, s2, e))
  {
    var r := FindDate(text);
    assert r.Some?;
    var m := r.value;
    assert m.start == p;
    LongestMatchUnique(text, p, w, s1, s2, e, m);
  }

  /** The captured group, split at its two separators. */
  datatype DateToken = DateToken(first: string, sep1: char, second: string, sep2: char, third: string)

  /** What the regex guarantees of a captured group. */
  predicate CapturedShape(t: DateToken) {
    1 <= |t.first| <= 2 && AllDigits(t.first) && IsDateSep(t.sep1)
    && 1 <= |t.second| <= 2 && AllDigits(t.second) && IsDateSep(t.sep2)
    && 2 <= |t.third| <= 4 && AllDigits(t.third)
  }

  function TokenOf(text: string, m: DateMatch): (t: DateToken)
    requires MatchAt(text, m.start, m.tokenStart, m.sep1, m.sep2, m.tokenEnd)
    ensures CapturedShape(t)
  {
    DateToken(text[m.tokenStart..m.sep1], text[m.sep1], text[m.sep1 + 1..m.sep2],
              text[m.sep2], text[m.sep2 + 1..m.tokenEnd])
  }

  /** `%m`: one or two digits naming a month 1-12. */
  function MonthField(f: string): (r: Option<int>)
    ensures r.Some? ==> 1 <= r.value <= 12
  {
    if 1 <= |f| <= 2 && AllDigits(f) && 1 <= DigitsValue(f) <= 12 then Some(DigitsValue(f)) else None
  }

  /** `%d`: one or two digits naming a day 1-31 (the month check comes later). */
  function DayField(f: string): (r: Option<int>)
    ensures r.Some? ==> 1 <= r.value <= 31
  {
    if 1 <= |f| <= 2 && AllDigits(f) && 1 <= DigitsValue(f) <= 31 then Some(DigitsValue(f)) else None
  }

  /** `%Y`: exactly four digits. */
  function YearField(f: string): (r: Option<int>)
    ensures r.Some? ==> |f| == 4
  {
    if |f| == 4 && AllDigits(f) then Some(DigitsValue(f)) else None
  }

  datatype FieldOrder = MonthDayYear | DayMonthYear | YearMonthDay

  /** A `strptime` format of three numeric fields joined by one separator. */
  datatype Format = Format(order: FieldOrder, sep: char)

  /** The formats in the order `parse_ocr_text` tries them. */
  const Formats: seq<Format> :=
    [Format(MonthDayYear, '/'), Format(MonthDayYear, '-'), Format(DayMonthYear, '/'), Format(YearMonthDay, '/')]

  /** `datetime.strptime(token, fmt).date()`, `None` for `ValueError`: the
      separators must be the format's, each field must fit its directive, and
      the result must be a real calendar date (year 0 and 30 February fail). */
  function Strptime(t: DateToken, fmt: Format): (r: Option<Date>)
    ensures r.Some? ==> ValidDate(r.value)
  {
    if t.sep1 != fmt.sep || t.sep2 != fmt.sep then None
    else
      var (y, m, d) := match fmt.order
        case MonthDayYear => (YearField(t.third), MonthField(t.first), DayField(t.second))
        case DayMonthYear => (YearField(t.third), MonthField(t.second), DayField(t.first))
        case YearMonthDay => (YearField(t.first), MonthField(t.second), DayField(t.third));
      if y.Some? && m.Some? && d.Some? && ValidDate(Date(y.value, m.value, d.value))
      then Some(Date(y.value, m.value, d.value))
      else None
  }

  /** The first format of `fmts` that reads the token. */
  function FirstParse(t: DateToken, fmts: seq<Format>): (r: Option<Date>)
    ensures r.Some? ==> ValidDate(r.value)
    ensures r.Some? <==> exists i :: 0 <= i < |fmts| && Strptime(t, fmts[i]).Some?
    ensures r.Some? ==> exists i :: 0 <= i < |fmts| && r == Strptime(t, fmts[i])
                                    && forall j :: 0 <= j < i ==> Strptime(t, fmts[j]).None?
  {
    if fmts == [] then None
    else match Strptime(t, fmts[0])
      case Some(d) => Some(d)
      case None =>
        var rest := FirstParse(t, fmts[1..]);
        assert forall i :: 1 <= i < |fmts| ==> fmts[i] == fmts[1..][i - 1];
        if rest.Some? then
          var i :| 0 <= i < |fmts[1..]| && rest == Strptime(t, fmts[1..][i])
                   && forall j :: 0 <= j < i ==> Strptime(t, fmts[1..][j]).None?;
          assert rest == Strptime(t, fmts[i + 1]);
          assert forall j :: 0 <= j < i + 1 ==> Strptime(t, fmts[j]).None?;
          rest
        else rest
  }

  /** The format loop: the date of the first format in `Formats` that reads
      the token, `None` when every format raises. */
  function ParseDateToken(t: DateToken): (r: Option<Date>)
    ensures r.None? <==> forall i :: 0 <= i < |Formats| ==> Strptime(t, Formats[i]).None?
    ensures r.Some? ==> ValidDate(r.value)
    ensures r.Some? ==> exists i :: 0 <= i < |Formats| && r == Strptime(t, Formats[i])
                                    && forall j :: 0 <= j < i ==> Strptime(t, Formats[j]).None?
  {
    FirstParse(t, Formats)
  }

  /** The date `parse_ocr_text` reports. */
  function ExtractDate(text: string, today: Date): (d: Date)
    ensures ValidDate(today) ==> ValidDate(d)
    ensures FindDate(text).None? ==> d == today
  {
    match FindDate(text)
    case None => today
    case Some(m) =>
      match ParseDateToken(TokenOf(text, m))
      case None => today
      case Some(d) => d
  }

  /** The reported date is fixed by the leftmost, longest match alone: the
      date its token reads as, or today when no format reads it, whatever
      later `DATE` matches the text holds. */
  lemma ExtractDateOfMatch(text: string, today: Date, p: nat, w: int, s1: int, s2: int, e: int)
    requires MatchAt(text, p, w, s1, s2, e)
    requires forall q, w', s1', s2', e' :: q < p ==> !MatchAt(text, q, w', s1', s2', e')
    requires forall e' :: e < e' ==> !MatchAt(text, p, w, s1, s2, e')
    ensures var t := TokenOf(text, DateMatch(p, w, s1, s2, e));
      && (ParseDateToken(t).Some? ==> ExtractDate(text, today) == ParseDateToken(t).value)
      && (ParseDateToken(t).None? ==> ExtractDate(text, today) == today)
  {
    FindDateIsLeftmostLongest(text, p, w, s1, s2, e);
  }

  /** `%Y/%m/%d` never reads a captured group: its first field has at most
      two digits. */
  lemma YearFirstNeverApplies(t: DateToken)
    requires CapturedShape(t)
    ensures Strptime(t, Format(YearMonthDay, '/')).None?
  {
  }

  /** A two- or three-digit year never yields a date: every result comes from
      a four-digit year. */
  lemma ShortYearFallsBack(t: DateToken)
    requires CapturedShape(t) && |t.third| != 4
    ensures ParseDateToken(t).None?
  {
    assert Strptime(t, Formats[0]).None?;
    assert Strptime(t, Formats[1]).None?;
    assert Strptime(t, Formats[2]).None?;
    assert Strptime(t, Formats[3]).None?;
  }

  /** How the format order resolves a captured group: with `/` the
      month-first reading wins whenever it is a valid date and the day-first
      reading is used otherwise; with `-` only the month-first reading exists;
      mixed separators never parse. */
  lemma ParseDateTokenCases(t: DateToken)
    requires CapturedShape(t)
    ensures t.sep1 == '/' && t.sep2 == '/' ==>
      ParseDateToken(t) == (if Strptime(t, Format(MonthDayYear, '/')).Some?
                            then Strptime(t, Format(MonthDayYear, '/'))
                            else Strptime(t, Format(DayMonthYear, '/')))
    ensures t.sep1 == '-' && t.sep2 == '-' ==> ParseDateToken(t) == Strptime(t, Format(MonthDayYear, '-'))
    ensures t.sep1 != t.sep2 ==> ParseDateToken(t).None?
  {
    YearFirstNeverApplies(t);
    var f0, f1, f2, f3 := Formats[0], Formats[1], Formats[2], Formats[3];
    assert Formats[1..] == [f1, f2, f3];
    assert Formats[1..][1..] == [f2, f3];
    assert Formats[1..][1..][1..] == [f3];
    assert Formats[1..][1..][1..][1..] == [];
    assert FirstParse(t, [f3]) == Strptime(t, f3);
    assert FirstParse(t, [f2, f3]) == (if Strptime(t, f2).Some? then Strptime(t, f2) else Strptime(t, f3));
    assert FirstParse(t, [f1, f2, f3]) == (if Strptime(t, f1).Some? then Strptime(t, f1) else FirstParse(t, [f2, f3]));
    assert ParseDateToken(t) == (if Strptime(t, f0).Some? then Strptime(t, f0) else FirstParse(t, [f1, f2, f3]));
  }

  /** A two-digit field with a leading zero, as receipts print months and days. */
  function Pad2(n: nat): (f: string)
    requires n < 100
    ensures |f| == 2 && AllDigits(f) && DigitsValue(f) == n
  {
    var f := [DigitChar(n / 10), DigitChar(n % 10)];
    assert f[..1] == [DigitChar(n / 10)];
    assert f[..1][..0] == [];
    assert DigitsValue(f[..1]) == n / 10;
    assert f[|f| - 1] == DigitChar(n % 10);
    assert n == 10 * (n / 10) + n % 10;
    f
  }

  lemma FourDigitYear(y: int)
    requires 1000 <= y <= 9999
    ensures |NatToString(y)| == 4
  {
    assert NatToString(y) == NatToString(y / 10) + [DigitChar(y % 10)];
    assert NatToString(y / 10) == NatToString(y / 100) + [DigitChar(y / 10 % 10)];
    assert NatToString(y / 100) == NatToString(y / 1000) + [DigitChar(y / 100 % 10)];
  }

  /** A date printed month first, `MM/DD/YYYY` or `MM-DD-YYYY`, is read back
      as that date. */
  lemma MonthFirstRoundTrip(d: Date, sep: char)
    requires ValidDate(d) && d.year >= 1000 && IsDateSep(sep)
    ensures ParseDateToken(DateToken(Pad2(d.month), sep, Pad2(d.day), sep, NatToString(d.year))) == Some(d)
  {
    var t := DateToken(Pad2(d.month), sep, Pad2(d.day), sep, NatToString(d.year));
    FourDigitYear(d.year);
    NatToStringRoundTrip(d.year);
    assert Strptime(t, Format(MonthDayYear, sep)) == Some(d);
    ParseDateTokenCases(t);
  }

  /** A date printed day first with slashes, `DD/MM/YYYY`, is read back as
      that date when its day cannot be a month (day above 12). */
  lemma DayFirstRoundTrip(d: Date)
    requires ValidDate(d) && d.year >= 1000 && d.day > 12
    ensures ParseDateToken(DateToken(Pad2(d.day), '/', Pad2(d.month), '/', NatToString(d.year))) == Some(d)
  {
    var t := DateToken(Pad2(d.day), '/', Pad2(d.month), '/', NatToString(d.year));
    FourDigitYear(d.year);
    NatToStringRoundTrip(d.year);
    assert Strptime(t, Format(MonthDayYear, '/')).None?;
    assert Strptime(t, Format(DayMonthYear, '/')) == Some(d);
    ParseDateTokenCases(t);
  }

  /** Day-first with dashes, `DD-MM-YYYY`, is never read day first: with a day
      above 12 it falls back to today. */
  lemma DayFirstDashFails(d: Date)
    requires ValidDate(d) && d.year >= 1000 && d.day > 12
    ensures ParseDateToken(DateToken(Pad2(d.day), '-', Pad2(d.month), '-', NatToString(d.year))).None?
  {
    var t := DateToken(Pad2(d.day), '-', Pad2(d.month), '-', NatToString(d.year));
    FourDigitYear(d.year);
    ParseDateTokenCases(t);
  }
}

=== FILE: ocr_examples.dfy ===
/** Worked receipts: what `parse_ocr_text` reads from a few short transcripts,
    derived from the general lemmas about the regex searches. */
module OcrExamples {
  import opened Wrappers
  import opened Text
  import opened Calendar
  import OcrAmount
  import OcrDate

  // ---------------------------------------------------------------------------
  // Amounts
  // ---------------------------------------------------------------------------

  /** The keyword `TOTAL` inside `SUBTOTAL` is found before the grand total. */
  const SubtotalReceipt: string := "SUBTOTAL 10.00 TOTAL 12.45"

  lemma SubtotalKeyword()
    ensures OcrAmount.KeywordThenSpace(SubtotalReceipt, 3, "TOTAL", 9)
  {
    var text := SubtotalReceipt;
    assert text[3..8] == "TOTAL" by {
      assert text[3] == 'T' && text[4] == 'O' && text[5] == 'T' && text[6] == 'A' && text[7] == 'L';
    }
    assert IsSpace(text[8]);
  }

  lemma SubtotalMatch()
    ensures OcrAmount.MatchAt(SubtotalReceipt, 3, 9, 14)
  {
    var text := SubtotalReceipt;
    SubtotalKeyword();
    assert text[9] == '1' && text[10] == '0' && text[11] == '.' && text[12] == '0' && text[13] == '0';
    assert forall k | 9 <= k < 14 :: OcrAmount.IsAmountChar(text[k]);
  }

  lemma SubtotalNothingEarlier()
    ensures forall q, w, e | q < 3 :: !OcrAmount.MatchAt(SubtotalReceipt, q, w, e)
  {
    var text := SubtotalReceipt;
    assert text[0] == 'S' && text[1] == 'U' && text[2] == 'B' && text[3] == 'T';
    forall q | 0 <= q < 3
      ensures !OccursAt(text, "TOTAL", q) && !OccursAt(text, "BALANCE", q) && !OccursAt(text, "AMOUNT", q)
    {
      assert text[q..q + 5][0] == text[q] && text[q..q + 6][0] == text[q] && text[q..q + 7][0] == text[q];
      assert text[q..q + 7][1] == text[q + 1];
    }
  }

  lemma SubtotalLongest()
    ensures forall e | 14 < e :: !OcrAmount.MatchAt(SubtotalReceipt, 3, 9, e)
  {
    assert !OcrAmount.IsAmountChar(SubtotalReceipt[14]);
  }

  lemma SubtotalToken()
    ensures SubtotalReceipt[9..14] == "10.00"
  {
    var text := SubtotalReceipt;
    assert text[9] == '1' && text[10] == '0' && text[11] == '.' && text[12] == '0' && text[13] == '0';
  }

  lemma SubtotalFound()
    ensures OcrAmount.FindAmount(SubtotalReceipt) == Some(OcrAmount.AmountMatch(3, 9, 14))
  {
    SubtotalMatch();
    SubtotalNothingEarlier();
    SubtotalLongest();
    OcrAmount.FindAmountIsLeftmostLongest(SubtotalReceipt, 3, 9, 14);
  }

  lemma TenDollars()
    ensures OcrAmount.DecimalCents("10.00") == Some(1000)
  {
    var s := "10.00";
    assert s[..2] == "10" && s[3..] == "00";
    assert DigitsValue("10") == 10 by {
      assert "10"[..1] == "1";
      assert "1"[..0] == [];
    }
    assert DigitsValue("00") == 0 by {
      assert "00"[..1] == "0";
      assert "0"[..0] == [];
    }
  }

  /** `SUBTOTAL 10.00 TOTAL 12.45` reports 10.00: the leftmost keyword wins. */
  lemma SubtotalIsReported()
    ensures OcrAmount.ExtractAmount(SubtotalReceipt) == 1000
  {
    SubtotalFound();
    SubtotalToken();
    OcrAmount.RemoveCharAbsent("10.00", ',');
    TenDollars();
  }

  /** A colon after the keyword is not `\s`, so `TOTAL: 5.00` reports 0. */
  const ColonReceipt: string := "TOTAL: 5.00"

  /** Only the `TOTAL` at the start is a keyword. */
  lemma ColonKeywordOnlyAtStart()
    ensures OcrAmount.KeywordLength(ColonReceipt, 0) == 5
    ensures forall q | 0 < q <= |ColonReceipt| :: OcrAmount.KeywordLength(ColonReceipt, q) == 0
  {
    var text := ColonReceipt;
    assert text[..5] == "TOTAL";
    assert text[3] == 'A' && text[4] == 'L';
    assert forall q | 0 < q < |text| :: text[q] != 'B' && (text[q] == 'T' ==> q == 2) && (text[q] == 'A' ==> q == 3);
    forall q | 0 < q <= |text|
      ensures !OccursAt(text, "TOTAL", q) && !OccursAt(text, "BALANCE", q) && !OccursAt(text, "AMOUNT", q)
    {
      MismatchAt(text, "BALANCE", q, 0);
      if q == 2 {
        MismatchAt(text, "TOTAL", q, 1);
      } else {
        MismatchAt(text, "TOTAL", q, 0);
      }
      if q == 3 {
        MismatchAt(text, "AMOUNT", q, 1);
      } else {
        MismatchAt(text, "AMOUNT", q, 0);
      }
    }
  }

  /** A word does not occur where one of its letters is missing. */
  lemma MismatchAt(hay: string, needle: string, q: int, k: int)
    requires 0 <= k < |needle|
    requires 0 <= q + k < |hay| ==> hay[q + k] != needle[k]
    ensures !OccursAt(hay, needle, q)
  {
    OccurrenceLetter(hay, needle, q, k);
  }

  /** Where a word occurs, the text holds each of its letters. */
  lemma OccurrenceLetter(hay: string, needle: string, q: int, k: int)
    requires 0 <= k < |needle|
    ensures OccursAt(hay, needle, q) ==> hay[q + k] == needle[k]
  {
    if OccursAt(hay, needle, q) {
      assert hay[q..q + |needle|][k] == hay[q + k];
    }
  }

  /** After the keyword comes `:`, which is neither `\s` nor `[\d,\.]`. */
  lemma ColonEndsRuns()
    ensures RunEnd(ColonReceipt, 5, IsSpace) == 5
    ensures RunEnd(ColonReceipt, 5, OcrAmount.IsAmountChar) == 5
  {
    assert ColonReceipt[5] == ':';
  }

  lemma ColonBlocksAmount()
    ensures OcrAmount.FindAmount(ColonReceipt).None?
    ensures OcrAmount.ExtractAmount(ColonReceipt) == 0
  {
    ColonKeywordOnlyAtStart();
    ColonEndsRuns();
    forall q, w, e | OcrAmount.MatchAt(ColonReceipt, q, w, e)
      ensures false
    {
      OcrAmount.MatchAtIsForced(ColonReceipt, q, w, e);
    }
  }

  /** The leftmost token `1.2.34` has two dots, so `Decimal` raises; the
      later `AMOUNT 5.00` is never tried. */
  const TwoDotReceipt: string := "TOTAL 1.2.34 AMOUNT 5.00"

  lemma TwoDotMatch()
    ensures OcrAmount.MatchAt(TwoDotReceipt, 0, 6, 12)
    ensures forall e | 12 < e :: !OcrAmount.MatchAt(TwoDotReceipt, 0, 6, e)
  {
    var text := TwoDotReceipt;
    assert text[..5] == "TOTAL";
    assert IsSpace(text[5]) && !OcrAmount.IsAmountChar(text[12]);
    assert text[6] == '1' && text[7] == '.' && text[8] == '2' && text[9] == '.' && text[10] == '3' && text[11] == '4';
    assert OcrAmount.KeywordThenSpace(text, 0, "TOTAL", 6);
    assert forall k | 6 <= k < 12 :: OcrAmount.IsAmountChar(text[k]);
  }

  lemma LaterAmountMatch()
    ensures OcrAmount.MatchAt(TwoDotReceipt, 13, 20, 24)
  {
    var text := TwoDotReceipt;
    assert text[13..19] == "AMOUNT" by {
      assert text[13] == 'A' && text[14] == 'M' && text[15] == 'O' && text[16] == 'U' && text[17] == 'N' && text[18] == 'T';
    }
    assert IsSpace(text[19]);
    assert OcrAmount.KeywordThenSpace(text, 13, "AMOUNT", 20);
    assert text[20] == '5' && text[21] == '.' && text[22] == '0' && text[23] == '0';
    assert forall k | 20 <= k < 24 :: OcrAmount.IsAmountChar(text[k]);
  }

  lemma TwoDotTokenFails()
    ensures OcrAmount.AmountToken(TwoDotReceipt[6..12])
    ensures OcrAmount.TokenCents(TwoDotReceipt[6..12]).None?
  {
    var text := TwoDotReceipt;
    assert text[6] == '1' && text[7] == '.' && text[8] == '2' && text[9] == '.' && text[10] == '3' && text[11] == '4';
    assert text[6..12] == "1.2.34";
    TwoDotTokenShape();
    TwoDotParsesNot();
  }

  lemma TwoDotParsesNot()
    requires OcrAmount.AmountToken("1.2.34")
    ensures OcrAmount.TokenCents("1.2.34").None?
  {
    TwoDotTokenCommaFree();
    var s := RemoveChar("1.2.34", ',');
    assert s[1] == '.';
  }

  lemma TwoDotTokenCommaFree()
    ensures RemoveChar("1.2.34", ',') == "1.2.34"
  {
    OcrAmount.RemoveCharAbsent("1.2.34", ',');
  }

  lemma TwoDotTokenShape()
    ensures OcrAmount.AmountToken("1.2.34")
  {
    var t := "1.2.34";
    assert t[0] == '1' && t[1] == '.' && t[2] == '2' && t[3] == '.' && t[4] == '3' && t[5] == '4';
  }

  /** `TOTAL 1.2.34 AMOUNT 5.00` reports 0 although `AMOUNT 5.00` matches. */
  lemma UnparsableLeftmostGivesZero()
    ensures OcrAmount.MatchAt(TwoDotReceipt, 13, 20, 24)
    ensures OcrAmount.ExtractAmount(TwoDotReceipt) == 0
  {
    TwoDotMatch();
    LaterAmountMatch();
    TwoDotTokenFails();
    OcrAmount.ExtractAmountOfMatch(TwoDotReceipt, 0, 6, 12);
  }

  // ---------------------------------------------------------------------------
  // Dates
  // ---------------------------------------------------------------------------

  /** `DATE: ` followed by two two-digit fields and a four-digit year, joined
      by `sep`. */
  function DateLine(first: string, sep: char, second: string, year: string): string {
    "DATE: " + first + [sep] + second + [sep] + year
  }

  predicate TwoDigits(f: string) { |f| == 2 && AllDigits(f) }

  /** Such a line, followed by anything that does not continue the year,
      matches at its start with the whole token captured. */
  lemma DateLineMatch(first: string, sep: char, second: string, year: string, rest: string)
    requires TwoDigits(first) && TwoDigits(second) && |year| == 4 && AllDigits(year)
    requires OcrDate.IsDateSep(sep)
    requires rest == [] || !IsDigit(rest[0])
    ensures OcrDate.MatchAt(DateLine(first, sep, second, year) + rest, 0, 6, 8, 11, 16)
    ensures forall e | 16 < e :: !OcrDate.MatchAt(DateLine(first, sep, second, year) + rest, 0, 6, 8, 11, e)
    ensures OcrDate.TokenOf(DateLine(first, sep, second, year) + rest, OcrDate.DateMatch(0, 6, 8, 11, 16))
         == OcrDate.DateToken(first, sep, second, sep, year)
  {
    var text := DateLine(first, sep, second, year) + rest;
    assert |text| == 16 + |rest|;
    assert text[..4] == "DATE";
    assert text[4] == ':' && text[5] == ' ';
    assert text[6..8] == first && text[8] == sep && text[9..11] == second && text[11] == sep && text[12..16] == year;
    assert OcrDate.DigitsBetween(text, 6, 8) by {
      forall k | 6 <= k < 8 ensures IsDigit(text[k]) { assert text[k] == first[k - 6]; }
    }
    assert OcrDate.DigitsBetween(text, 9, 11) by {
      forall k | 9 <= k < 11 ensures IsDigit(text[k]) { assert text[k] == second[k - 9]; }
    }
    assert OcrDate.DigitsBetween(text, 12, 16) by {
      forall k | 12 <= k < 16 ensures IsDigit(text[k]) { assert text[k] == year[k - 12]; }
    }
    assert rest != [] ==> text[16] == rest[0];
  }

  /** A line on its own is what the search finds. */
  lemma DateLineFound(first: string, sep: char, second: string, year: string)
    requires TwoDigits(first) && TwoDigits(second) && |year| == 4 && AllDigits(year)
    requires OcrDate.IsDateSep(sep)
    ensures OcrDate.FindDate(DateLine(first, sep, second, year)) == Some(OcrDate.DateMatch(0, 6, 8, 11, 16))
    ensures OcrDate.TokenOf(DateLine(first, sep, second, year), OcrDate.DateMatch(0, 6, 8, 11, 16))
         == OcrDate.DateToken(first, sep, second, sep, year)
  {
    var text := DateLine(first, sep, second, year);
    assert text + [] == text;
    DateLineMatch(first, sep, second, year, []);
    OcrDate.FindDateIsLeftmostLongest(text, 0, 6, 8, 11, 16);
  }

  lemma DigitsValueTwo(f: string)
    requires TwoDigits(f)
    ensures DigitsValue(f) == 10 * DigitValue(f[0]) + DigitValue(f[1])
  {
    assert f[..1] == [f[0]];
    assert DigitsValue(f[..1]) == DigitValue(f[0]) by {
      assert f[..1][..0] == [];
    }
  }

  lemma Year2024()
    ensures DigitsValue("2024") == 2024
  {
    assert "2024"[..3] == "202" && "202"[..2] == "20" && "20"[..1] == "2" && "2"[..0] == [];
  }

  lemma DayFirstSlashToken()
    ensures OcrDate.ParseDateToken(OcrDate.DateToken("25", '/', "11", '/', "2024")) == Some(Date(2024, 11, 25))
  {
    var t := OcrDate.DateToken("25", '/', "11", '/', "2024");
    OcrDate.ParseDateTokenCases(t);
    DigitsValueTwo("25");
    DigitsValueTwo("11");
    Year2024();
    assert OcrDate.MonthField("25").None?;
  }

  /** `DATE: 25/11/2024` is read day first: 25 November 2024. */
  lemma DayFirstSlashDate(today: Date)
    ensures OcrDate.ExtractDate(DateLine("25", '/', "11", "2024"), today) == Date(2024, 11, 25)
  {
    DateLineFound("25", '/', "11", "2024");
    DayFirstSlashToken();
  }

  /** A slash token whose first field is a month of 2024 is read month first. */
  lemma MonthFirstSlashReading(month: string, day: string, d: Date)
    requires TwoDigits(month) && TwoDigits(day) && ValidDate(d) && d.year == 2024
    requires DigitsValue(month) == d.month && DigitsValue(day) == d.day
    ensures OcrDate.ParseDateToken(OcrDate.DateToken(month, '/', day, '/', "2024")) == Some(d)
  {
    var t := OcrDate.DateToken(month, '/', day, '/', "2024");
    Year2024();
    assert OcrDate.Strptime(t, OcrDate.Format(OcrDate.MonthDayYear, '/')) == Some(d);
    OcrDate.ParseDateTokenCases(t);
  }

  lemma MonthFirstSlashToken()
    ensures OcrDate.ParseDateToken(OcrDate.DateToken("03", '/', "04", '/', "2024")) == Some(Date(2024, 3, 4))
  {
    DigitsValueTwo("03");
    DigitsValueTwo("04");
    MonthFirstSlashReading("03", "04", Date(2024, 3, 4));
  }

  /** `DATE: 03/04/2024` is read month first: 4 March 2024. */
  lemma MonthFirstSlashDate(today: Date)
    ensures OcrDate.ExtractDate(DateLine("03", '/', "04", "2024"), today) == Date(2024, 3, 4)
  {
    DateLineFound("03", '/', "04", "2024");
    MonthFirstSlashToken();
  }

  /** `DATE: 25-11-2024` matches but no format reads it: today is reported. */
  lemma DayFirstDashDate(today: Date)
    ensures OcrDate.ExtractDate(DateLine("25", '-', "11", "2024"), today) == today
  {
    DateLineFound("25", '-', "11", "2024");
    var t := OcrDate.DateToken("25", '-', "11", '-', "2024");
    OcrDate.ParseDateTokenCases(t);
    DigitsValueTwo("25");
    assert OcrDate.MonthField("25").None?;
  }

  /** A match found in the second part of a text is found there, shifted,
      in the whole text. */
  lemma MatchAtShift(a: string, b: string, p: nat, w: int, s1: int, s2: int, e: int)
    requires OcrDate.MatchAt(b, p, w, s1, s2, e)
    ensures OcrDate.MatchAt(a + b, |a| + p, |a| + w, |a| + s1, |a| + s2, |a| + e)
  {
    var text := a + b;
    var n := |a|;
    forall k | 0 <= k < |b| ensures text[n + k] == b[k] { }
    assert text[n + p..n + p + 4] == b[p..p + 4];
    forall k | n + p + 4 <= k < n + w ensures OcrDate.IsColonOrSpace(text[k]) { assert text[k] == b[k - n]; }
    forall k | n + w <= k < n + s1 ensures IsDigit(text[k]) { assert text[k] == b[k - n]; }
    forall k | n + s1 + 1 <= k < n + s2 ensures IsDigit(text[k]) { assert text[k] == b[k - n]; }
    forall k | n + s2 + 1 <= k < n + e ensures IsDigit(text[k]) { assert text[k] == b[k - n]; }
  }

  /** Two `DATE` lines: a month-first dash date that cannot be read, then a
      slash date that can. */
  const TwoDateReceipt: string := DateLine("13", '-', "25", "2024") + " " + DateLine("01", '/', "02", "2024")

  lemma FirstDateLineFound()
    ensures OcrDate.MatchAt(TwoDateReceipt, 0, 6, 8, 11, 16)
    ensures forall e | 16 < e :: !OcrDate.MatchAt(TwoDateReceipt, 0, 6, 8, 11, e)
    ensures OcrDate.TokenOf(TwoDateReceipt, OcrDate.DateMatch(0, 6, 8, 11, 16)) == OcrDate.DateToken("13", '-', "25", '-', "2024")
  {
    var rest := " " + DateLine("01", '/', "02", "2024");
    assert TwoDateReceipt == DateLine("13", '-', "25", "2024") + rest;
    assert rest[0] == ' ';
    DateLineMatch("13", '-', "25", "2024", rest);
  }

  lemma SecondDateLineMatches()
    ensures OcrDate.MatchAt(TwoDateReceipt, 17, 23, 25, 28, 33)
  {
    var line := DateLine("01", '/', "02", "2024");
    var head := DateLine("13", '-', "25", "2024") + " ";
    assert line + [] == line;
    DateLineMatch("01", '/', "02", "2024", []);
    MatchAtShift(head, line, 0, 6, 8, 11, 16);
    assert TwoDateReceipt == head + line;
  }

  lemma Thirteen()
    ensures OcrDate.MonthField("13").None?
  {
    DigitsValueTwo("13");
  }

  lemma SecondOfJanuaryToken()
    ensures OcrDate.ParseDateToken(OcrDate.DateToken("01", '/', "02", '/', "2024")) == Some(Date(2024, 1, 2))
  {
    DigitsValueTwo("01");
    DigitsValueTwo("02");
    MonthFirstSlashReading("01", "02", Date(2024, 1, 2));
  }

  /** `DATE: 13-25-2024 DATE: 01/02/2024` reports today: no format reads the
      first date, and the second `DATE` (2 January 2024 on its own) is never
      tried. */
  lemma UnreadableFirstDateGivesToday(today: Date)
    ensures OcrDate.MatchAt(TwoDateReceipt, 17, 23, 25, 28, 33)
    ensures OcrDate.ParseDateToken(OcrDate.DateToken("01", '/', "02", '/', "2024")) == Some(Date(2024, 1, 2))
    ensures OcrDate.ExtractDate(TwoDateReceipt, today) == today
  {
    FirstDateLineFound();
    SecondDateLineMatches();
    SecondOfJanuaryToken();
    var t := OcrDate.DateToken("13", '-', "25", '-', "2024");
    OcrDate.ParseDateTokenCases(t);
    Thirteen();
    OcrDate.ExtractDateOfMatch(TwoDateReceipt, today, 0, 6, 8, 11, 16);
  }
}

=== FILE: ocr_service.dfy ===
/** `parse_ocr_text`: normalise the OCR transcript, then read merchant,
    amount, date, category and payment method from it with fixed rules. */
module OcrService {
  import opened Text
  import opened Calendar
  import OcrAmount
  import OcrDate

  lemma CountUpper(s: string, c: char)
    requires !IsLower(c) && !IsUpper(c)
    ensures Count(Upper(s), c) == Count(s, c)
  {
    if s != [] {
      assert Upper(s)[1..] == Upper(s[1..]);
      CountUpper(s[1..], c);
    }
  }

  lemma CountReplace(s: string, c: char, from: char, to: char)
    requires c != from && c != to
    ensures Count(ReplaceChar(s, from, to), c) == Count(s, c)
  {
    if s != [] {
      assert ReplaceChar(s, from, to)[1..] == ReplaceChar(s[1..], from, to);
      CountReplace(s[1..], c, from, to);
    }
  }

  /** `raw_text.upper().replace('\n', ' ').replace('$', '')`: one character
      shorter per dollar sign, with no newline, dollar sign or lower-case
      letter left. */
  function Normalize(raw: string): (text: string)
    ensures |text| == |raw| - Count(raw, '$')
    ensures forall i :: 0 <= i < |text| ==> text[i] != '\n' && text[i] != '$' && !IsLower(text[i])
  {
    var upper := Upper(raw);
    var spaced := ReplaceChar(upper, '\n', ' ');
    CountUpper(raw, '$');
    CountReplace(upper, '$', '\n', ' ');
    RemoveChar(spaced, '$')
  }

  /** Normalising normalised text changes nothing. */
  lemma NormalizeIdempotent(raw: string)
    ensures Normalize(Normalize(raw)) == Normalize(raw)
  {
    var text := Normalize(raw);
    assert Upper(text) == text;
    assert ReplaceChar(Upper(text), '\n', ' ') == text;
    assert '$' !in text;
    OcrAmount.RemoveCharAbsent(text, '$');
  }

  /** The class `[A-Z\s&]`. */
  predicate IsMerchantChar(c: char) { IsUpper(c) || IsSpace(c) || c == '&' }

  const UnknownMerchant: string := "Unknown Merchant (OCR)"

  /** `^([A-Z\s&]+)` matches with group `text[..k]`: the longest non-empty
      prefix made of the class. */
  predicate MerchantPrefix(text: string, k: int)
    ensures MerchantPrefix(text, k) <==> 0 < k && k == RunEnd(text, 0, IsMerchantChar)
  {
    0 < k <= |text| && (forall i :: 0 <= i < k ==> IsMerchantChar(text[i]))
    && (k == |text| || !IsMerchantChar(text[k]))
  }

  /** The merchant: the stripped group of `^([A-Z\s&]+)`, or the placeholder
      when the text does not start with a character of the class. */
  function ExtractMerchant(text: string): (m: string)
    ensures m == UnknownMerchant <==> (|text| == 0 || !IsMerchantChar(text[0]))
    ensures m != UnknownMerchant ==> exists k :: MerchantPrefix(text, k) && m == Strip(text[..k])
  {
    var k := RunEnd(text, 0, IsMerchantChar);
    if k == 0 then UnknownMerchant
    else
      var m := Strip(text[..k]);
      assert MerchantPrefix(text, k);
      StrippedPrefixShape(text, k, m);
      ClassIsNotPlaceholder(m);
      m
  }

  /** The placeholder has a lower-case letter, so no run of the class spells
      it. */
  lemma ClassIsNotPlaceholder(m: string)
    requires forall i :: 0 <= i < |m| ==> IsMerchantChar(m[i])
    ensures m != UnknownMerchant
  {
    assert |m| > 1 ==> m[1] != UnknownMerchant[1];
  }

  /** A found merchant is the stripped class prefix. */
  lemma MerchantIsStrippedPrefix(text: string)
    requires ExtractMerchant(text) != UnknownMerchant
    ensures var k := RunEnd(text, 0, IsMerchantChar);
      k > 0 && ExtractMerchant(text) == Strip(text[..k])
  {
  }

  /** A stretch of the text made of the class, with no whitespace at its
      ends. */
  predicate MerchantLike(text: string, m: string) {
    Contains(text, m)
    && (forall i :: 0 <= i < |m| ==> IsMerchantChar(m[i]))
    && (m == [] || (!IsSpace(m[0]) && !IsSpace(m[|m| - 1])))
  }

  /** Stripping a class prefix leaves a stretch of the text made of the
      class, with no whitespace at its ends. */
  lemma StrippedPrefixShape(text: string, k: nat, m: string)
    requires 0 < k <= |text| && forall i :: 0 <= i < k ==> IsMerchantChar(text[i])
    requires m == Strip(text[..k])
    ensures MerchantLike(text, m)
  {
    var prefix := text[..k];
    var lo := StripStart(prefix);
    assert OccursAt(text, m, lo) by {
      assert text[lo..lo + |m|] == prefix[lo..lo + |m|];
    }
    forall i | 0 <= i < |m| ensures IsMerchantChar(m[i]) {
      assert m[i] == prefix[lo + i];
    }
  }

  /** Whatever merchant is found is a stretch of the text, made of the class,
      with no surrounding whitespace. */
  lemma MerchantShape(text: string)
    ensures ExtractMerchant(text) != UnknownMerchant ==> MerchantLike(text, ExtractMerchant(text))
  {
    var m := ExtractMerchant(text);
    if m != UnknownMerchant {
      MerchantIsStrippedPrefix(text);
      StrippedPrefixShape(text, RunEnd(text, 0, IsMerchantChar), m);
    }
  }

  /** A class prefix of only whitespace gives the empty merchant. */
  lemma BlankMerchant(text: string)
    ensures var k := RunEnd(text, 0, IsMerchantChar);
      k > 0 && (forall i :: 0 <= i < k ==> IsSpace(text[i])) ==> ExtractMerchant(text) == []
  {
    var k := RunEnd(text, 0, IsMerchantChar);
    if k > 0 {
      assert ExtractMerchant(text) == Strip(text[..k]);
    }
  }

  datatype Category = DiningFastFood | FoodGroceries | Uncategorized {
    function Name(): string {
      match this
      case DiningFastFood => "Dining & Fast Food"
      case FoodGroceries => "Food & Groceries"
      case Uncategorized => "Uncategorized"
    }
  }

  /** The category rules, first hit wins: burger, cafe or food means dining;
      supermart or grocery means groceries. */
  function Categorize(merchant: string, text: string): (c: Category)
    ensures c == DiningFastFood <==>
      Contains(merchant, "BURGER") || Contains(merchant, "CAFE") || Contains(text, "FOOD")
    ensures c == FoodGroceries <==>
      !Contains(merchant, "BURGER") && !Contains(merchant, "CAFE") && !Contains(text, "FOOD")
      && (Contains(merchant, "SUPERMART") || Contains(text, "GROCERY"))
    ensures c == Uncategorized <==>
      !Contains(merchant, "BURGER") && !Contains(merchant, "CAFE") && !Contains(text, "FOOD")
      && !Contains(merchant, "SUPERMART") && !Contains(text, "GROCERY")
  {
    if Contains(merchant, "BURGER") || Contains(merchant, "CAFE") || Contains(text, "FOOD") then DiningFastFood
    else if Contains(merchant, "SUPERMART") || Contains(text, "GROCERY") then FoodGroceries
    else Uncategorized
  }

  datatype PaymentMethod = CreditCard | UnknownMethod {
    function Name(): string {
      match this
      case CreditCard => "Credit Card"
      case UnknownMethod => "Unknown"
    }
  }

  /** A card word anywhere in the text means a credit card. */
  function DetectPayment(text: string): (p: PaymentMethod)
    ensures p == CreditCard <==> Contains(text, "VISA") || Contains(text, "MASTERCARD") || Contains(text, "CREDIT")
  {
    if Contains(text, "VISA") || Contains(text, "MASTERCARD") || Contains(text, "CREDIT") then CreditCard
    else UnknownMethod
  }

  /** The dictionary `parse_ocr_text` returns; the amount is in cents. */
  datatype OcrResult = OcrResult(
    amount: nat,
    currency: string,
    expenseDate: Date,
    merchantName: string,
    description: string,
    paymentMethod: string,
    categoryName: string)

  /** `text[:150]`. */
  function Preview(text: string): (p: string)
    ensures |p| <= 150 && p <= text
    ensures |p| == if |text| <= 150 then |text| else 150
    ensures |text| <= 150 ==> p == text
  {
    if |text| <= 150 then text else text[..150]
  }

  /** `parse_ocr_text(raw_text)` with the clock read passed in as `today`. */
  function ParseOcrText(raw: string, today: Date): (r: OcrResult)
    ensures r.currency == "USD"
    ensures r.paymentMethod == "Credit Card" || r.paymentMethod == "Unknown"
    ensures ValidDate(today) ==> ValidDate(r.expenseDate)
    ensures r.description == "OCR Category: " + r.categoryName + ". Items: " + Preview(Normalize(raw)) + "..."
    ensures r.categoryName in {"Dining & Fast Food", "Food & Groceries", "Uncategorized"}
    ensures r.merchantName == ExtractMerchant(Normalize(raw))
    ensures r.amount == OcrAmount.ExtractAmount(Normalize(raw))
    ensures r.expenseDate == OcrDate.ExtractDate(Normalize(raw), today)
  {
    var text := Normalize(raw);
    var merchant := ExtractMerchant(text);
    var category := Categorize(merchant, text);
    OcrResult(
      OcrAmount.ExtractAmount(text),
      "USD",
      OcrDate.ExtractDate(text, today),
      merchant,
      "OCR Category: " + category.Name() + ". Items: " + Preview(text) + "...",
      DetectPayment(text).Name(),
      category.Name())
  }

  /** Every character of a substring occurs in the text. */
  lemma ContainsChars(hay: string, needle: string)
    requires Contains(hay, needle)
    ensures forall i :: 0 <= i < |needle| ==> needle[i] in hay
  {
    var j :| 0 <= j <= |hay| - |needle| && OccursAt(hay, needle, j);
    forall i | 0 <= i < |needle| ensures needle[i] in hay {
      assert needle[i] == hay[j + i];
    }
  }

  /** The placeholder merchant triggers no merchant rule. */
  lemma PlaceholderHasNoKeyword()
    ensures !Contains(UnknownMerchant, "BURGER") && !Contains(UnknownMerchant, "CAFE")
    ensures !Contains(UnknownMerchant, "SUPERMART")
  {
    AbsentCharBlocks(UnknownMerchant, "BURGER", 0);
    AbsentCharBlocks(UnknownMerchant, "CAFE", 1);
    AbsentCharBlocks(UnknownMerchant, "SUPERMART", 0);
  }

  /** A text lacking one character of a word does not contain the word. */
  lemma AbsentCharBlocks(hay: string, needle: string, i: int)
    requires 0 <= i < |needle| && needle[i] !in hay
    ensures !Contains(hay, needle)
  {
    if Contains(hay, needle) {
      ContainsChars(hay, needle);
    }
  }

  /** The category is one of the three names. */
  lemma CategoryIsKnown(raw: string, today: Date)
    ensures ParseOcrText(raw, today).categoryName in {"Dining & Fast Food", "Food & Groceries", "Uncategorized"}
  {
  }

  /** Whatever the merchant contains, the text contains too. */
  lemma MerchantKeywordInText(text: string, kw: string)
    requires Contains(ExtractMerchant(text), kw)
    requires kw == "BURGER" || kw == "CAFE" || kw == "SUPERMART"
    ensures Contains(text, kw)
  {
    var m := ExtractMerchant(text);
    PlaceholderHasNoKeyword();
    MerchantShape(text);
    ContainsTransitive(text, m, kw);
  }

  /** The category rules read on one normalised text: each category needs one
      of its keywords somewhere in the text. */
  lemma CategoryFollowsKeywords(text: string)
    ensures var c := Categorize(ExtractMerchant(text), text);
      && (c == DiningFastFood ==> Contains(text, "BURGER") || Contains(text, "CAFE") || Contains(text, "FOOD"))
      && (c == FoodGroceries ==> Contains(text, "SUPERMART") || Contains(text, "GROCERY"))
      && (Contains(text, "FOOD") ==> c == DiningFastFood)
      && ((!Contains(text, "BURGER") && !Contains(text, "CAFE") && !Contains(text, "FOOD")
           && !Contains(text, "SUPERMART") && !Contains(text, "GROCERY")) ==> c == Uncategorized)
  {
    var m := ExtractMerchant(text);
    if Contains(m, "BURGER") { MerchantKeywordInText(text, "BURGER"); }
    if Contains(m, "CAFE") { MerchantKeywordInText(text, "CAFE"); }
    if Contains(m, "SUPERMART") { MerchantKeywordInText(text, "SUPERMART"); }
  }

  /** The category depends on the normalised text alone: each category needs
      one of its keywords somewhere in the text, `FOOD` always means dining,
      and a text with none of the five keywords is uncategorised. */
  lemma CategoryFollowsText(raw: string, today: Date)
    ensures var text := Normalize(raw); var c := ParseOcrText(raw, today).categoryName;
      && (c == "Dining & Fast Food" ==> Contains(text, "BURGER") || Contains(text, "CAFE") || Contains(text, "FOOD"))
      && (c == "Food & Groceries" ==> Contains(text, "SUPERMART") || Contains(text, "GROCERY"))
      && (Contains(text, "FOOD") ==> c == "Dining & Fast Food")
      && ((!Contains(text, "BURGER") && !Contains(text, "CAFE") && !Contains(text, "FOOD")
           && !Contains(text, "SUPERMART") && !Contains(text, "GROCERY")) ==> c == "Uncategorized")
  {
    var text := Normalize(raw);
    var cat := Categorize(ExtractMerchant(text), text);
    assert ParseOcrText(raw, today).categoryName == cat.Name();
    CategoryFollowsKeywords(text);
  }

  /** The category rules on the record: dining when the extracted merchant
      names a burger place or a cafe or the text mentions food; otherwise
      groceries when the merchant names a supermart or the text mentions
      groceries; otherwise uncategorised. */
  lemma CategoryRule(raw: string, today: Date)
    ensures var text := Normalize(raw); var m := ExtractMerchant(text);
      var r := ParseOcrText(raw, today);
      var dining := Contains(m, "BURGER") || Contains(m, "CAFE") || Contains(text, "FOOD");
      var grocery := Contains(m, "SUPERMART") || Contains(text, "GROCERY");
      && r.merchantName == m
      && (r.categoryName == "Dining & Fast Food" <==> dining)
      && (r.categoryName == "Food & Groceries" <==> !dining && grocery)
      && (r.categoryName == "Uncategorized" <==> !dining && !grocery)
  {
    var text := Normalize(raw);
    var c := Categorize(ExtractMerchant(text), text);
    assert ParseOcrText(raw, today).categoryName == c.Name();
  }

  /** The record's amount, read at the leftmost-longest amount match of the
      normalised text: the token's value when `Decimal` accepts it, 0 when
      it does not, whatever later matches exist. */
  lemma RecordAmountOfMatch(raw: string, today: Date, p: nat, w: int, e: int)
    requires OcrAmount.MatchAt(Normalize(raw), p, w, e)
    requires forall q, w', e' :: q < p ==> !OcrAmount.MatchAt(Normalize(raw), q, w', e')
    requires forall e' :: e < e' ==> !OcrAmount.MatchAt(Normalize(raw), p, w, e')
    ensures 0 <= w <= e <= |Normalize(raw)| && OcrAmount.AmountToken(Normalize(raw)[w..e])
    ensures var token := OcrAmount.TokenCents(Normalize(raw)[w..e]);
      && (token.Some? ==> ParseOcrText(raw, today).amount == token.value)
      && (token.None? ==> ParseOcrText(raw, today).amount == 0)
  {
    OcrAmount.ExtractAmountOfMatch(Normalize(raw), p, w, e);
  }

  /** A transcript with no amount match records 0. */
  lemma RecordAmountWithoutMatch(raw: string, today: Date)
    requires forall q, w, e :: !OcrAmount.MatchAt(Normalize(raw), q, w, e)
    ensures ParseOcrText(raw, today).amount == 0
  {
  }

  /** The record's date, read at the leftmost-longest date match of the
      normalised text: the first format's reading when one accepts the
      token, today when none does, whatever later matches exist. */
  lemma RecordDateOfMatch(raw: string, today: Date, p: nat, w: int, s1: int, s2: int, e: int)
    requires OcrDate.MatchAt(Normalize(raw), p, w, s1, s2, e)
    requires forall q, w', s1', s2', e' :: q < p ==> !OcrDate.MatchAt(Normalize(raw), q, w', s1', s2', e')
    requires forall e' :: e < e' ==> !OcrDate.MatchAt(Normalize(raw), p, w, s1, s2, e')
    ensures var t := OcrDate.ParseDateToken(OcrDate.TokenOf(Normalize(raw), OcrDate.DateMatch(p, w, s1, s2, e)));
      && (t.Some? ==> ParseOcrText(raw, today).expenseDate == t.value)
      && (t.None? ==> ParseOcrText(raw, today).expenseDate == today)
  {
    OcrDate.ExtractDateOfMatch(Normalize(raw), today, p, w, s1, s2, e);
  }

  /** A transcript with no date match records today. */
  lemma RecordDateWithoutMatch(raw: string, today: Date)
    requires forall q, w, s1, s2, e :: !OcrDate.MatchAt(Normalize(raw), q, w, s1, s2, e)
    ensures ParseOcrText(raw, today).expenseDate == today
  {
  }

  /** The payment method is a credit card exactly when a card word appears in
      the normalised text, in any letter case of the raw transcript. */
  lemma PaymentFollowsText(raw: string, today: Date)
    ensures ParseOcrText(raw, today).paymentMethod == "Credit Card" <==>
      var text := Normalize(raw);
      Contains(text, "VISA") || Contains(text, "MASTERCARD") || Contains(text, "CREDIT")
  {
  }

  /** The result is a function of the normalised text: transcripts that
      differ only in letter case, newlines versus spaces, or dollar signs
      give the same record. */
  lemma ParseDependsOnNormalizedText(raw1: string, raw2: string, today: Date)
    requires Normalize(raw1) == Normalize(raw2)
    ensures ParseOcrText(raw1, today) == ParseOcrText(raw2, today)
  {
  }
}

=== FILE: text.dfy ===
/** Characters and strings with Python `str` semantics, restricted to ASCII.
    Strings are `seq<char>`; indices are code points as in Python. */
module Text {

  predicate IsDigit(c: char) { '0' <= c <= '9' }

  predicate IsUpper(c: char) { 'A' <= c <= 'Z' }

  predicate IsLower(c: char) { 'a' <= c <= 'z' }

  /** `str.isspace()` and the regex class `\s` on ASCII: tab, line feed,
      vertical tab, form feed, carriage return, the separators 0x1C-0x1F
      and space. */
  predicate IsSpace(c: char) {
    c == ' ' || ('\t' <= c <= '\r') || ('\U{1C}' <= c <= '\U{1F}')
  }

  predicate AllDigits(s: string) {
    forall i :: 0 <= i < |s| ==> IsDigit(s[i])
  }

  /** `str.upper()` on one character: only `a`-`z` change. */
  function UpperChar(c: char): (u: char)
    ensures !IsLower(u)
    ensures IsLower(c) ==> IsUpper(u) && u as int + 32 == c as int
    ensures !IsLower(c) ==> u == c
  {
    if IsLower(c) then (c as int - 32) as char else c
  }

  function Upper(s: string): (r: string)
    ensures |r| == |s|
    ensures forall i :: 0 <= i < |s| ==> r[i] == UpperChar(s[i])
  {
    if s == [] then [] else [UpperChar(s[0])] + Upper(s[1..])
  }

  /** `s.replace(from, to)` for single characters. */
  function ReplaceChar(s: string, from: char, to: char): (r: string)
    ensures |r| == |s|
    ensures forall i :: 0 <= i < |s| ==> r[i] == if s[i] == from then to else s[i]
  {
    if s == [] then [] else [if s[0] == from then to else s[0]] + ReplaceChar(s[1..], from, to)
  }

  /** Number of occurrences of `c` in `s`. */
  function Count(s: string, c: char): (n: nat)
    ensures n <= |s|
  {
    if s == [] then 0 else (if s[0] == c then 1 else 0) + Count(s[1..], c)
  }

  /** `s.replace(c, '')`: every occurrence of `c` deleted, the rest kept in order. */
  function RemoveChar(s: string, c: char): (r: string)
    ensures |r| == |s| - Count(s, c)
    ensures forall i :: 0 <= i < |r| ==> r[i] != c
    ensures forall i :: 0 <= i < |r| ==> r[i] in s
  {
    if s == [] then []
    else if s[0] == c then RemoveChar(s[1..], c)
    else [s[0]] + RemoveChar(s[1..], c)
  }

  lemma {:induction false} RemoveCharAppend(a: string, b: string, c: char)
    ensures RemoveChar(a + b, c) == RemoveChar(a, c) + RemoveChar(b, c)
    decreases |a|
  {
    if a != [] {
      assert (a + b)[1..] == a[1..] + b;
      RemoveCharAppend(a[1..], b, c);
    } else {
      assert a + b == b;
    }
  }

  /** `needle` occurs in `hay` starting at index `i`. */
  predicate OccursAt(hay: string, needle: string, i: int) {
    0 <= i && i + |needle| <= |hay| && hay[i..i + |needle|] == needle
  }

  /** Python's `needle in hay`. */
  predicate Contains(hay: string, needle: string) {
    exists i :: 0 <= i <= |hay| - |needle| && OccursAt(hay, needle, i)
  }

  /** Substring is transitive. */
  lemma ContainsTransitive(a: string, b: string, c: string)
    requires Contains(a, b) && Contains(b, c)
    ensures Contains(a, c)
  {
    var i :| 0 <= i <= |a| - |b| && OccursAt(a, b, i);
    var j :| 0 <= j <= |b| - |c| && OccursAt(b, c, j);
    forall k | 0 <= k < |c|
      ensures a[i + j + k] == c[k]
    {
      assert a[i + j + k] == a[i..i + |b|][j + k] == b[j + k];
      assert b[j + k] == b[j..j + |c|][k];
    }
    assert a[i + j..i + j + |c|] == c;
    assert OccursAt(a, c, i + j);
  }

  /** End of the longest run of characters satisfying `p` that starts at `i`. */
  function RunEnd(s: string, i: nat, p: char -> bool): (j: nat)
    requires i <= |s|
    ensures i <= j <= |s|
    ensures forall k :: i <= k < j ==> p(s[k])
    ensures j == |s| || !p(s[j])
    decreases |s| - i
  {
    if i == |s| || !p(s[i]) then i else RunEnd(s, i + 1, p)
  }

  /** A run boundary is determined by the text: any `k` with the run's
      characters before it and a non-member at `k` is the run end. */
  lemma RunEndUnique(s: string, i: nat, p: char -> bool, k: nat)
    requires i <= k <= |s|
    requires forall m :: i <= m < k ==> p(s[m])
    requires k == |s| || !p(s[k])
    ensures RunEnd(s, i, p) == k
  {
  }

  /** `s.strip()` keeps `s[StripStart(s)..StripStop(s)]`. */
  function StripStart(s: string): (i: nat)
    ensures i <= |s|
    ensures forall k :: 0 <= k < i ==> IsSpace(s[k])
    ensures i == |s| || !IsSpace(s[i])
  {
    RunEnd(s, 0, IsSpace)
  }

  function StripStop(s: string, lo: nat): (j: nat)
    requires lo <= |s|
    ensures lo <= j <= |s|
    ensures forall k :: j <= k < |s| ==> IsSpace(s[k])
    ensures j == lo || !IsSpace(s[j - 1])
    decreases |s|
  {
    if |s| == lo || !IsSpace(s[|s| - 1]) then |s| else StripStop(s[..|s| - 1], lo)
  }

  /** `s.strip()`: `s` is whitespace, then the result, then whitespace, and the
      result neither starts nor ends with whitespace. */
  function Strip(s: string): (r: string)
    ensures OccursAt(s, r, StripStart(s))
    ensures forall k :: 0 <= k < StripStart(s) ==> IsSpace(s[k])
    ensures forall k :: StripStart(s) + |r| <= k < |s| ==> IsSpace(s[k])
    ensures r == [] || (!IsSpace(r[0]) && !IsSpace(r[|r| - 1]))
    ensures r == [] <==> forall k :: 0 <= k < |s| ==> IsSpace(s[k])
  {
    var lo := StripStart(s);
    var hi := StripStop(s, lo);
    s[lo..hi]
  }

  function DigitValue(c: char): nat
    requires IsDigit(c)
  {
    c as int - '0' as int
  }

  function DigitChar(d: nat): (c: char)
    requires d < 10
    ensures IsDigit(c) && DigitValue(c) == d
  {
    ('0' as int + d) as char
  }

  /** Value of a string of decimal digits, most significant first
      (`int(s)`; the empty string is 0). */
  function DigitsValue(s: string): nat
    requires AllDigits(s)
  {
    if s == [] then 0 else 10 * DigitsValue(s[..|s| - 1]) + DigitValue(s[|s| - 1])
  }

  /** `str(n)` for a natural number: decimal digits without leading zeros. */
  function NatToString(n: nat): (s: string)
    ensures |s| >= 1 && AllDigits(s)
    ensures s[0] == '0' ==> n == 0
  {
    if n < 10 then [DigitChar(n)] else NatToString(n / 10) + [DigitChar(n % 10)]
  }

  /** `str(n)` for any integer: a minus sign before the magnitude. */
  function IntToString(n: int): (s: string)
    ensures |s| >= 1
    ensures n < 0 <==> s[0] == '-'
  {
    if n < 0 then "-" + NatToString(-n) else NatToString(n)
  }

  /** Reading back the decimal rendering gives the number. */
  lemma {:induction false} NatToStringRoundTrip(n: nat)
    ensures DigitsValue(NatToString(n)) == n
    decreases n
  {
    if n >= 10 {
      var s := NatToString(n);
      assert s[..|s| - 1] == NatToString(n / 10);
      NatToStringRoundTrip(n / 10);
    }
  }
}

=== FILE: wrappers.dfy ===
/** Failure-carrying values used across the model: `Option` for "no match"
    and `Result` for the exceptions the source raises. */
module Wrappers {

  datatype Option<+T> = None | Some(value: T)

  datatype Result<+T, +E> = Success(value: T) | Failure(error: E)
}
